=== FILE: README.md ===
# Label printing core, modelled in Dafny

This project models the label-printing core of a small React application for a
parts supplier. The application has three parts:

- A production-order list (`LableTable.tsx`). It can be searched by order number
  and is paged on the client.
- A label detail screen (`LabelDetail.tsx`). Here the operator searches labels
  by lot number, ticks labels one by one or all at once, and prints the ticked
  ones.
- The PDF label sheet (`PrintLabel.tsx`). Each label is a 12 × 11 grid of cells.
  Missing fields show placeholders. The `print_data` text is hard-wrapped at 12
  characters over at most four lines. The sheet has ten labels per A4 page, each
  page numbered "i/n". Every label carries two QR codes: one shared code for the
  order number, and one per-label code for `print_data`. A failed QR encoding
  leaves its cell blank.

The model is written with pure functions over immutable data. The main pieces are:

- The JavaScript built-ins the screens rely on: `trim`, `toLowerCase`,
  `includes`, `substring`, `slice`, `Math.ceil` and the `||` fallback. Each
  keeps its edge cases (clamped and negative indices, empty needles, empty
  strings as falsy). There are two simplifications: strings are sequences of
  characters rather than UTF-16 code units, and lower-casing covers ASCII
  letters only. Both are listed under "Left out".
- The QR library, which appears only as a parameter: a function that may fail.

Modules (one file each):

| module | file | what it holds |
|---|---|---|
| `Wrappers` | wrappers.dfy | `Option` |
| `JsText` | js_text.dfy | `trim`, ASCII `toLowerCase`, `includes`, `substring`, `\|\|`, decimal numerals |
| `Seqs` | seqs.dfy | flatten, subsequence, filter, ceiling division, `Array.prototype.slice` |
| `LabelTypes` | label_types.dfy | the printable label, the order header, a label with its QR codes |
| `SearchFilter` | search_filter.dfy | the trim / lower-case / `includes` search shared by both screens |
| `PrintDataWrap` | print_data_wrap.dfy | the 12-character, four-line wrapper |
| `LabelFields` | label_fields.dfy | the value of every cell of one label, with its fallback |
| `LabelGrid` | label_grid.dfy | the label's cell spans as a tree of flex rows and columns |
| `Pagination` | pagination.dfy | pages of ten, the paging loop, the page-number footer |
| `LabelDocument` | label_document.dfy | the rendered document: pages of rendered labels, numbered |
| `QrEnrichment` | qr_enrichment.dfy | `openPDFInNewTab` up to the finished document |
| `LabelSelection` | label_selection.dfy | the detail screen's toggle, select-all, lot search and print |
| `LabelTable` | label_table.dfy | the order list's search, paging, caption and handlers |

## Model

Source paths are relative to the repository root.

| member | source | states |
|---|---|---|
| JsText.Trim | src/components/label-list/LableTable.tsx:51 | `trim()` leaves nothing exactly when the term is all white space, and otherwise neither end of the result is white space |
| JsText.Includes | src/components/label-list/LableTable.tsx:55 | `includes` holds exactly when the needle occurs at some position of the haystack; the empty needle always occurs |
| JsText.NatToString | src/components/print/PrintLabel.tsx:443 | a number interpolated into text is a non-empty run of digits with no leading zero whose decimal value is the number |
| SearchFilter.Search | src/pages/LabelDetail/LabelDetail.tsx:59-68 | a blank search term keeps every row; otherwise a row stays exactly when its key, lower-cased, contains the lower-cased (untrimmed) term; either way the rows keep their order, and a matching row that occurs several times is kept as often as it occurs |
| SearchFilter.SearchIdempotent | src/pages/LabelDetail/LabelDetail.tsx:59-68 | searching the search result again with the same term changes nothing |
| SearchFilter.SearchIgnoresTermCase | src/pages/LabelDetail/LabelDetail.tsx:59-68 | a term and its lower-cased form show the same rows: blank together, and matching the same rows in the same order |
| SearchFilter.MatchIgnoresCase | src/components/label-list/LableTable.tsx:55 | the match does not depend on the case of ASCII letters on either side |
| PrintDataWrap.WrapLines | src/components/print/PrintLabel.tsx:323-344 | the wrapper yields one to four lines, each at most 12 characters and all but the last exactly 12; line i is the i-th 12-character window of the text; fewer than four lines means the whole text fitted, and no line after the first is empty |
| PrintDataWrap.WrapPrintData | src/components/print/PrintLabel.tsx:324 | a missing `print_data` is wrapped as the empty text, and the cell always gets one to four lines |
| PrintDataWrap.WrapKeepsPrefix | src/components/print/PrintLabel.tsx:323-344 | the lines read in order give back the text up to its 48th character: nothing below the cap is lost or reordered |
| PrintDataWrap.ShortTextIsOneLine | src/components/print/PrintLabel.tsx:324-325 | text of at most 12 characters is one unchanged line, and a missing `print_data` is one empty line |
| PrintDataWrap.LineCount | src/components/print/PrintLabel.tsx:325-343 | at most 12 characters (none included) give one line, 13–24 two, 25–36 three, and 37 or more four |
| PrintDataWrap.FiftyCharacters | src/components/print/PrintLabel.tsx:341-343 | fifty characters give four full lines, and the last two characters are dropped |
| LabelFields.QrImage | src/components/print/PrintLabel.tsx:263-265 | a QR image is drawn exactly when its source is present and non-empty |
| LabelFields.QtyCell | src/components/print/PrintLabel.tsx:240 | the quantity cell shows the quantity, or 0 when it is missing |
| LabelFields.ProdNoCell | src/components/print/PrintLabel.tsx:277 | the order-number cell shows the header's `prod_no` when it is present and non-empty, else nothing |
| LabelFields.RenderLabel | src/components/print/PrintLabel.tsx:83-366 | every cell shows its field when that field is present and non-empty and its own placeholder otherwise: " - " for job no, "-" for back no and TMMIN id, "" for the rest, 0 for quantity; the supplier number is always 3000474; the lot cell has a trailing space; the print-data cell is the wrapped text; QR-1 and QR-2 each show their own code, and each appears exactly when that code is non-empty |
| LabelFields.BareLabelShowsPlaceholders | src/components/print/PrintLabel.tsx:119-128 | a label with every optional field missing still renders, with every placeholder in place |
| LabelGrid.TopBand | src/components/print/PrintLabel.tsx:91-131 | rows 1–2 (logo plus supplier, job, back-number and TMMIN heading and value cells) tile 12 columns by 2 rows |
| LabelGrid.PartNoBand | src/components/print/PrintLabel.tsx:134-151 | row 3 (part number and the two QR headings) tiles 12 columns by 1 row |
| LabelGrid.PartNameRow | src/components/print/PrintLabel.tsx:157-168 | the part-name row tiles 8 columns by 1 row |
| LabelGrid.LotNoRow | src/components/print/PrintLabel.tsx:170-181 | the lot-number row tiles 8 columns by 1 row |
| LabelGrid.OperatorRow | src/components/print/PrintLabel.tsx:183-197 | the operator / model row tiles 8 columns by 1 row |
| LabelGrid.DateShiftRow | src/components/print/PrintLabel.tsx:199-216 | the merged date / shift rows tile 8 columns by 2 rows |
| LabelGrid.StatusHeadingRow | src/components/print/PrintLabel.tsx:218-232 | the status headings tile 8 columns by 1 row |
| LabelGrid.StatusValueRow | src/components/print/PrintLabel.tsx:234-248 | the status values tile 8 columns by 2 rows |
| LabelGrid.LeftStack | src/components/print/PrintLabel.tsx:155-249 | rows 4–11 of columns 1–8 tile 8 columns by 8 rows |
| LabelGrid.Qr1Strip | src/components/print/PrintLabel.tsx:251-303 | QR-1, the order number and the characteristics tile 2 columns by 8 rows |
| LabelGrid.Qr2Strip | src/components/print/PrintLabel.tsx:305-362 | the print-data text over QR-2 tiles 2 columns by 8 rows |
| LabelGrid.BodyBand | src/components/print/PrintLabel.tsx:153-364 | rows 4–11 tile 12 columns by 8 rows |
| LabelGrid.LabelLayout | src/components/print/PrintLabel.tsx:91-366 | the whole label tiles the 12 × 11 grid with no gap and no overhang, covering exactly 132 cells |
| LabelGrid.TiledAreaIsRectangle | src/components/print/PrintLabel.tsx:91-366 | any box whose rows hold equal heights and whose columns hold equal widths covers exactly its bounding rectangle |
| LabelGrid.GridSpansLabelWidth | src/components/print/PrintLabel.tsx:11-13 | the column pitch divides the 288 pt label width exactly, so twelve columns span the label |
| Pagination.Chunks | src/components/print/PrintLabel.tsx:396-398 | the chunks concatenate back to the input, and there are none exactly when the input is empty |
| Pagination.ChunkSizes | src/components/print/PrintLabel.tsx:396-398 | every chunk holds 1 to `size` items, and all but the last hold exactly `size` |
| Pagination.ChunkCount | src/components/print/PrintLabel.tsx:396-398 | there are ⌈n / size⌉ chunks |
| Pagination.ChunkWindows | src/components/print/PrintLabel.tsx:397 | chunk i is the window `[size·i, min(size·i + size, n))` of the input, and that window starts inside the input |
| Pagination.Paginate | src/components/print/PrintLabel.tsx:395-402 | there is always at least one page; no labels give a single empty page; otherwise there are ⌈n / 10⌉ pages of 1–10 labels, all but the last full, in input order |
| Pagination.SplitPages | src/components/print/PrintLabel.tsx:395-402 | the paging loop (`slice(i, i + 10)` while `i < n`, then an empty page when there is none) builds exactly those pages |
| Pagination.PageNumber | src/components/print/PrintLabel.tsx:443 | cut where the page number's digits end, the footer has a slash there; the text before it reads back as the 1-based page number and the text after it as the page count |
| Pagination.PageNumberReadsBack | src/components/print/PrintLabel.tsx:443 | the footer is the page number's decimal text, a slash and the page count's decimal text, so every character but that slash is a digit |
| Pagination.PageNumbersDistinct | src/components/print/PrintLabel.tsx:443 | two pages of one document never carry the same footer |
| LabelDocument.NumberPages | src/components/print/PrintLabel.tsx:406-443 | each page keeps its labels, and page i of n gets the footer "i+1/n" |
| LabelDocument.RenderDocument | src/components/print/PrintLabel.tsx:404-452 | page i of the document holds the rendered labels of page i of the pagination, and its footer is "i+1/n" |
| LabelDocument.DocumentShape | src/components/print/PrintLabel.tsx:390-455 | the document's labels, page after page, are the input labels rendered in order; the page count is ⌈n / 10⌉, or 1 for no labels; all pages but the last are full |
| LabelDocument.PlainDocument | src/components/print/PrintLabel.tsx:390-450 | `LabelDocument` prints `data \|\| []` on at least one page; its labels, page after page, are the input labels in order, each drawn without QR images |
| LabelDocument.QrDocument | src/components/print/PrintLabel.tsx:457-517 | `LabelDocumentWithQR` prints at least one page; its labels, page after page, are the enriched labels in order, each drawn with its own two codes |
| LabelDocument.EmptyDocumentHasOnePage | src/components/print/PrintLabel.tsx:391-402 | no data, or an empty list, prints one empty page numbered "1/1" |
| LabelDocument.PlainIsBlankQr | src/components/print/PrintLabel.tsx:420-428 | the document without QR codes is the QR document with both codes empty |
| LabelDocument.TwentyThreeLabels | src/components/print/PrintLabel.tsx:457-468 | 23 labels print on three pages of 10, 10 and 3, and the last footer reads "3/3" |
| QrEnrichment.GenerateQrDataUrl | src/components/print/PrintLabel.tsx:371-382 | the encoder's data URL is returned, or "" when the encoder throws |
| QrEnrichment.SharedQrCode | src/components/print/PrintLabel.tsx:530-533 | QR-1 is "" without a header or with a missing or empty `prod_no`; otherwise it is the encoding of `prod_no`, or "" when that encoding fails |
| QrEnrichment.LabelQrCode | src/components/print/PrintLabel.tsx:535-540 | QR-2 of a label is "" when its `print_data` is missing or empty; otherwise it is the encoding of `print_data`, or "" when that encoding fails |
| QrEnrichment.Enrich | src/components/print/PrintLabel.tsx:528-549 | there is one entry per input label, in input order; every entry carries the same QR-1, which is the order number's code, or "" without an order number; QR-2 is the label's own `print_data` code, or "" without `print_data` |
| QrEnrichment.GenerateQrCodes | src/components/print/PrintLabel.tsx:528-549 | the loop that pushes label after label builds exactly that enriched list |
| QrEnrichment.BuildDocument | src/components/print/PrintLabel.tsx:528-551 | the document always has a page, and it prints as many labels as there are input labels |
| QrEnrichment.BuildDocumentLabels | src/components/print/PrintLabel.tsx:528-551 | the printed document holds one label per input label, in input order, each rendered with the shared QR-1 and its own QR-2 |
| QrEnrichment.EncoderFailureBlanksOneCell | src/components/print/PrintLabel.tsx:378-381 | a label whose QR-2 encoding fails is still printed, without its QR-2 image, and its QR-1 is unaffected |
| QrEnrichment.NoSourcesNoImages | src/components/print/PrintLabel.tsx:531-540 | with no order number (no header, or a missing or empty `prod_no`) and no `print_data`, no QR image is drawn anywhere |
| QrEnrichment.EmptyBatchOnePage | src/components/print/PrintLabel.tsx:536-551 | no data, or an empty list, prints one empty page |
| LabelSelection.ToggleLabel | src/pages/LabelDetail/LabelDetail.tsx:70-78 | a click flips the clicked label's membership and no other |
| LabelSelection.ToggleTwice | src/pages/LabelDetail/LabelDetail.tsx:70-78 | clicking a row twice restores the selection |
| LabelSelection.ToggleFlipsOnlyItsRows | src/pages/LabelDetail/LabelDetail.tsx:235-236 | clicking a row's checkbox flips the tick of every row with that label id and of no other row |
| LabelSelection.LabelIds | src/pages/LabelDetail/LabelDetail.tsx:84 | the id set holds exactly the ids of the given labels |
| LabelSelection.DistinctIdsCount | src/pages/LabelDetail/LabelDetail.tsx:84 | labels with distinct ids give as many ids as labels |
| LabelSelection.SelectAll | src/pages/LabelDetail/LabelDetail.tsx:80-86 | as written: when the header is ticked the selection is cleared; otherwise it becomes exactly the ids of the shown labels |
| LabelSelection.SelectAllClearsIffChecked | src/pages/LabelDetail/LabelDetail.tsx:80-86 | select-all empties the selection exactly when the header was ticked or no label is shown |
| LabelSelection.SizeTestSoundWithoutHiddenSelection | src/pages/LabelDetail/LabelDetail.tsx:209 | when ids are distinct and nothing outside the shown labels is selected, the size test agrees with the contents test |
| LabelSelection.HiddenSelectionMisleadsHeader | src/pages/LabelDetail/LabelDetail.tsx:81 | with lots "A" and "B" loaded, the lot search for "A" shows only the first; with the second selected, the size test ticks the header over an unticked row, and its click clears the hidden label instead of selecting the shown one |
| LabelSelection.SelectAllByContents | src/pages/LabelDetail/LabelDetail.tsx:80-86 | corrected select-all: clear when every shown label is selected, otherwise select exactly the shown labels |
| LabelSelection.HeaderAgreesWithRows | src/pages/LabelDetail/LabelDetail.tsx:209 | the corrected header is ticked exactly when some label is shown and every shown row is ticked |
| LabelSelection.SelectAllByContentsFlips | src/pages/LabelDetail/LabelDetail.tsx:80-86 | with the corrected test, every click on the header flips it while labels are shown |
| LabelSelection.LotNoFilter | src/pages/LabelDetail/LabelDetail.tsx:59-68 | a blank lot term shows every loaded label; otherwise a label is shown exactly when its `lot_no`, lower-cased, contains the lower-cased term, as often as it was loaded and in load order |
| LabelSelection.PrintSelection | src/pages/LabelDetail/LabelDetail.tsx:88-95 | printing is refused exactly when nothing is selected; otherwise the batch is every loaded label whose id is selected, each as often as it was loaded, in load order |
| LabelSelection.PrintIncludesHiddenSelections | src/pages/LabelDetail/LabelDetail.tsx:95 | a selected label that the lot search does not show is printed all the same |
| LabelSelection.HandlePrint | src/pages/LabelDetail/LabelDetail.tsx:88-98 | no document is produced for an empty selection; otherwise the document holds the batch's labels, in order, each with the shared QR-1 and its own QR-2 |
| LabelTable.Initial | src/components/label-list/LableTable.tsx:16-22 | the list starts with no rows, an empty search term, ten rows per page, on page one, in a valid state |
| LabelTable.ProdNoFilter | src/components/label-list/LableTable.tsx:50-58 | a blank term shows all rows; otherwise a row is shown exactly when its `prod_no` contains the term, ignoring ASCII case; the order and the number of occurrences are kept |
| LabelTable.TotalPages | src/components/label-list/LableTable.tsx:62 | `Math.ceil(n / rowsPerPage)`: the fewest pages of that size that hold all n rows, so none exactly when there are no rows |
| LabelTable.StartIndex | src/components/label-list/LableTable.tsx:68 | page p (from 1) starts after p − 1 full pages, at the sum of their sizes |
| LabelTable.EndIndex | src/components/label-list/LableTable.tsx:69 | a page ends one page size past its start, or at the last row when that comes first: never past either |
| LabelTable.CurrentData | src/components/label-list/LableTable.tsx:64 | a page never shows more rows than the page size |
| LabelTable.CurrentDataIsChunk | src/components/label-list/LableTable.tsx:62-64 | every existing page shows the matching ⌈n / size⌉-way chunk of the filtered rows |
| LabelTable.PagesCoverRows | src/components/label-list/LableTable.tsx:62-64 | walking pages 1 to `totalPages` shows every filtered row once, in order |
| LabelTable.WindowLength | src/components/label-list/LableTable.tsx:64-69 | an existing page starts inside the rows and shows `endIndex - startIndex` of them |
| LabelTable.ShowingCaption | src/components/label-list/LableTable.tsx:223 | the caption's total is the number of filtered rows, its last row number never exceeds that total, and on page one or later its first row number is at least 1 |
| LabelTable.CaptionMatchesRows | src/components/label-list/LableTable.tsx:62-69 | "Showing a to b of n" counts exactly the rows on screen, 1-based, within 1..n; an empty list reads "1 to 0 of 0" |
| LabelTable.PageChange | src/components/label-list/LableTable.tsx:71-75 | a page from 1 to `totalPages` is accepted and anything else is ignored; only the page number changes, and the state stays valid |
| LabelTable.EmptyListIgnoresPaging | src/components/label-list/LableTable.tsx:71-75 | with no rows shown no page change is accepted, not even to page one |
| LabelTable.RowsPerPageChange | src/components/label-list/LableTable.tsx:78-82 | a new page size goes back to page one and keeps rows and term |
| LabelTable.SearchChange | src/components/label-list/LableTable.tsx:50-60 | a new term re-filters the loaded rows and goes back to page one, keeping the rows and the page size |
| LabelTable.RowsLoaded | src/components/label-list/LableTable.tsx:49-60 | newly loaded rows are filtered with the current term, and the list goes back to page one, keeping the term and the page size |
| LabelTable.HandlersKeepValid | src/components/label-list/LableTable.tsx:59-82 | the starting state is valid (an offered page size, a page between one and the last), and every handler keeps it valid |
| LabelTable.PartName | src/components/label-list/LableTable.tsx:203 | the Part Name cell shows `mat_desc` when it is present and non-empty, else `description`, else nothing |

## Left out

- Rendering: fonts, borders, padding, colours and the logo image are not modelled. The model gives each field's value in `LabelFields` and the grid spans in `LabelGrid`, but it does not tie a field to its grid cell.
- The fixed captions printed on every label ("FG", "OK / NG", "D", "N" and the heading texts) are not in `LabelCells`. They are constants independent of the data.
- Image sizes are not modelled: QR-1 is drawn `COL_WIDTH * 1.2` by `ROW_HEIGHT * 2.1`, QR-2 `COL_WIDTH * 1.8` by `ROW_HEIGHT * 2.8`, and the logo 55 by 20 points (`src/components/print/PrintLabel.tsx:95`, `:264`, `:359`). `ROW_HEIGHT` is 161/11, which is not an integer. Only the cells' spans are modelled, in whole grid units.
- QR encoding is a parameter that may fail. Error-correction level, margins and image width belong to the QR library, which is not part of this model.
- The PDF blob, `URL.createObjectURL`, `window.open`, the toasts, the pop-up-blocked fallback and the delayed URL revocation are left out. They are browser I/O with no effect on what is printed.
- The "Printed at" date and time in the footer are left out, because they come from the clock. Only the page number "i/n" is modelled.
- React component keys (`label_id || index`) are left out; they do not affect the output.
- Fetching rows and labels from the API, the loading and error states, auth and routing are left out. The rows enter the model as parameters.
- The pager widget `Pagination.tsx` is not part of this model. `LabelTable.PageChange` stands in for what it calls back.
- `ProdHeader` keeps the columns the order list shows (id as the row key, `prod_index`, `prod_no`, `item`, `mat_desc`, `description`, `customer`, `qty_order`). The rest of the API record (planning date, old part number, model, SNP, status, delivered quantity, warehouse, ...) is left out, and so are the label's `customer`, `lot_date` and `lot_qty`. No modelled code reads them.
- JsText.ToLower: lower-cases ASCII letters only. JavaScript's full Unicode case mapping is not modelled.
- JsText.Includes: positions are counted in characters, not UTF-16 code units. Both agree for text without astral-plane characters.
- PrintDataWrap.WrapLines: counts characters where JavaScript's `length` and `substring` count UTF-16 code units. For text with astral-plane characters (emoji, for instance) the source makes more lines than the model, and it can split a surrogate pair between two lines. Both agree for text without such characters.
- LabelFields.QtyCell: a `NaN` quantity, which `||` would also replace by 0, is not modelled. Quantities are integers.
- LabelTable.RowsPerPageChange: requires one of the page sizes 10, 20, 30 and 50. The `<select>` offers only these, so `parseInt` never sees anything else.
- React effects run after a render. The brief render between a search change and the page reset, and concurrent updates, are not modelled. Each handler is one atomic state step.

## Findings

| source | as written | input that shows it | evidently intended | confidence | as-written member | corrected member |
|---|---|---|---|---|---|---|
| src/pages/LabelDetail/LabelDetail.tsx:81 | The header checkbox and select-all compare only the NUMBER of selected ids with the number of shown labels. The same test appears at line 209. | Two labels are loaded, 1 (lot "A") and 2 (lot "B"). Label 2 is selected, and the lot search for "A" shows only label 1. The header shows ticked while label 1's row is not, and clicking it clears label 2 rather than selecting label 1. With both selected, the header shows unticked although every shown row is ticked. | The header is ticked exactly when every shown label is selected, so each click flips it. | medium; not executed | LabelSelection.HiddenSelectionMisleadsHeader | LabelSelection.SelectAllByContents |

=== FILE: js_text.dfy ===
/**
 * The handful of JavaScript string built-ins the label screens rely on:
 * `String.prototype.trim`, `toLowerCase` (ASCII letters only), `includes`,
 * `substring`, the `||` fallback on an optional string, and the decimal
 * rendering of a non-negative number.
 */
module JsText {
  import opened Wrappers

  /** ECMAScript WhiteSpace and LineTerminator code points: what `trim` strips. */
  predicate IsWhitespace(c: char) {
    || c == '\t' || c == '\n' || c == '\U{B}' || c == '\U{C}' || c == '\r'
    || c == ' ' || c == '\U{A0}' || c == '\U{1680}'
    || ('\U{2000}' <= c <= '\U{200A}')
    || c == '\U{2028}' || c == '\U{2029}' || c == '\U{202F}'
    || c == '\U{205F}' || c == '\U{3000}' || c == '\U{FEFF}'
  }

  ghost predicate AllWhitespace(s: string) {
    forall i :: 0 <= i < |s| ==> IsWhitespace(s[i])
  }

  /** Drops leading white space: the result is a suffix of `s` and what was cut is all white space. */
  function TrimStart(s: string): (r: string)
    ensures |r| <= |s| && r == s[|s| - |r|..]
    ensures AllWhitespace(s[..|s| - |r|])
    ensures |r| > 0 ==> !IsWhitespace(r[0])
    decreases |s|
  {
    if |s| > 0 && IsWhitespace(s[0]) then TrimStart(s[1..]) else s
  }

  /** Drops trailing white space: the result is a prefix of `s` and what was cut is all white space. */
  function TrimEnd(s: string): (r: string)
    ensures |r| <= |s| && r == s[..|r|]
    ensures AllWhitespace(s[|r|..])
    ensures |r| > 0 ==> !IsWhitespace(r[|r| - 1])
    decreases |s|
  {
    if |s| > 0 && IsWhitespace(s[|s| - 1]) then TrimEnd(s[..|s| - 1]) else s
  }

  /** `s.trim()`: empty exactly when `s` is all white space, and otherwise neither
      starting nor ending with white space. */
  function Trim(s: string): (r: string)
    ensures |r| == 0 <==> AllWhitespace(s)
    ensures |r| > 0 ==> !IsWhitespace(r[0]) && !IsWhitespace(r[|r| - 1])
  {
    TrimFacts(s);
    TrimEnd(TrimStart(s))
  }

  /** `trim` empties exactly the all-white-space strings, and leaves no white space at either end. */
  lemma TrimFacts(s: string)
    ensures var r := TrimEnd(TrimStart(s));
            && (|r| == 0 <==> AllWhitespace(s))
            && (|r| > 0 ==> !IsWhitespace(r[0]) && !IsWhitespace(r[|r| - 1]))
  {
    var t := TrimStart(s);
    var r := TrimEnd(t);
    TrimStartBlank(s);
    TrimEndBlank(t);
    if |t| > 0 {
      assert !IsWhitespace(t[0]);
    }
    if |r| > 0 {
      assert r[0] == t[0];
    }
  }

  /** Only an all-white-space string loses everything to `TrimStart`. */
  lemma TrimStartBlank(s: string)
    ensures |TrimStart(s)| == 0 <==> AllWhitespace(s)
  {
    var t := TrimStart(s);
    var k := |s| - |t|;
    if |t| == 0 {
      assert s[..k] == s;
    } else {
      assert s[k] == t[0];
    }
  }

  /** Only an all-white-space string loses everything to `TrimEnd`. */
  lemma TrimEndBlank(t: string)
    ensures |TrimEnd(t)| == 0 <==> AllWhitespace(t)
  {
    var r := TrimEnd(t);
    if |r| == 0 {
      assert t[|r|..] == t;
    } else {
      assert t[|r| - 1] == r[|r| - 1];
    }
  }

  /** The filter boxes treat a search term as absent when it trims to the empty string. */
  predicate IsBlank(s: string) {
    Trim(s) == ""
  }

  function LowerChar(c: char): char {
    if 'A' <= c <= 'Z' then (c as int + 32) as char else c
  }

  /** `s.toLowerCase()` restricted to ASCII letters. */
  function ToLower(s: string): string {
    seq(|s|, i requires 0 <= i < |s| => LowerChar(s[i]))
  }

  /** Lower-casing twice is lower-casing once, and it neither makes nor unmakes white space. */
  lemma ToLowerFacts(s: string)
    ensures ToLower(ToLower(s)) == ToLower(s)
    ensures AllWhitespace(ToLower(s)) <==> AllWhitespace(s)
  {
    forall i | 0 <= i < |s| ensures IsWhitespace(ToLower(s)[i]) == IsWhitespace(s[i]) {
      assert ToLower(s)[i] == LowerChar(s[i]);
    }
  }

  predicate OccursAt(hay: string, needle: string, i: int) {
    0 <= i <= |hay| - |needle| && hay[i..i + |needle|] == needle
  }

  /** `hay.includes(needle)`: `needle` occurs somewhere in `hay` (the empty needle always does). */
  function Includes(hay: string, needle: string): (r: bool)
    ensures r <==> exists i :: OccursAt(hay, needle, i)
    decreases |hay|
  {
    if |needle| > |hay| then
      false
    else if hay[..|needle|] == needle then
      assert OccursAt(hay, needle, 0);
      true
    else
      var r := Includes(hay[1..], needle);
      if r then
        var i :| OccursAt(hay[1..], needle, i);
        assert hay[1..][i..i + |needle|] == hay[i + 1..i + 1 + |needle|];
        assert OccursAt(hay, needle, i + 1);
        r
      else
        forall i | 0 <= i <= |hay| - |needle| ensures !OccursAt(hay, needle, i) {
          if i > 0 {
            assert !OccursAt(hay[1..], needle, i - 1);
            assert hay[1..][i - 1..i - 1 + |needle|] == hay[i..i + |needle|];
          } else {
            assert hay[0..|needle|] == hay[..|needle|];
          }
        }
        r
  }

  /** Clamps a `substring` argument into `[0, len]`. */
  function ClampIndex(i: int, len: nat): nat {
    if i < 0 then 0 else if i > len then len else i
  }

  /** `s.substring(start, end)`: both ends clamped into the string, swapped when reversed. */
  function Substring(s: string, start: int, end: int): string {
    var a := ClampIndex(start, |s|);
    var b := ClampIndex(end, |s|);
    if a <= b then s[a..b] else s[b..a]
  }

  /** `s.substring(start)`. */
  function SubstringFrom(s: string, start: int): string {
    Substring(s, start, |s|)
  }

  /** JavaScript truthiness of an optional string: present and non-empty. */
  predicate Truthy(v: Option<string>) {
    v.Some? && v.value != ""
  }

  /** `v || fallback` on an optional string. */
  function Or(v: Option<string>, fallback: string): string {
    if Truthy(v) then v.value else fallback
  }

  function DigitChar(d: nat): char
    requires d < 10
  {
    ['0', '1', '2', '3', '4', '5', '6', '7', '8', '9'][d]
  }

  function DigitValue(c: char): nat {
    if '0' <= c <= '9' then c as int - '0' as int else 0
  }

  predicate IsDigit(c: char) {
    '0' <= c <= '9'
  }

  /** The value of a string of decimal digits. */
  function DecimalValue(s: string): nat {
    if |s| == 0 then 0 else 10 * DecimalValue(s[..|s| - 1]) + DigitValue(s[|s| - 1])
  }

  /** How a non-negative integer is interpolated into JSX text: its shortest decimal numeral. */
  function NatToString(n: nat): (r: string)
    ensures |r| >= 1
    ensures forall i :: 0 <= i < |r| ==> IsDigit(r[i])
    ensures |r| > 1 ==> r[0] != '0'
    ensures DecimalValue(r) == n
  {
    if n < 10 then
      [DigitChar(n)]
    else
      var r := NatToString(n / 10) + [DigitChar(n % 10)];
      assert r[..|r| - 1] == NatToString(n / 10);
      r
  }

  /** Decimal numerals of different numbers differ. */
  lemma NatToStringInjective(m: nat, n: nat)
    requires m != n
    ensures NatToString(m) != NatToString(n)
  {
  }
}

=== FILE: label_document.dfy ===
/**
 * The printable document: the labels cut into pages of ten, each label
 * rendered by `LabelFields.RenderLabel`, each page closed by its page-number
 * footer. `LabelDocument` draws no QR images; `LabelDocumentWithQR` draws the
 * two codes carried by each enriched label.
 */
module LabelDocument {
  import opened Wrappers
  import opened JsText
  import opened Seqs
  import opened LabelTypes
  import opened LabelFields
  import opened Pagination

  /** One A4 page: its labels in order and the `"{i+1}/{n}"` footer text. */
  datatype RenderedPage = RenderedPage(labels: seq<LabelCells>, pageNumber: string)

  /** Attaches its footer to every page. */
  function NumberPages(pages: seq<seq<LabelCells>>): (doc: seq<RenderedPage>)
    ensures |doc| == |pages|
    ensures forall i :: 0 <= i < |doc| ==> doc[i].labels == pages[i]
    ensures forall i {:trigger doc[i].pageNumber} :: 0 <= i < |doc| ==> doc[i].pageNumber == PageNumber(i, |pages|)
  {
    seq(|pages|, i requires 0 <= i < |pages| => RenderedPage(pages[i], PageNumber(i, |pages|)))
  }

  /** Numbering the pages leaves their labels as they are. */
  lemma NumberedPageLabels(pages: seq<seq<LabelCells>>)
    ensures MapSeq(NumberPages(pages), (p: RenderedPage) => p.labels) == pages
  {
  }

  /** The labels of a document, page after page. */
  function DocumentLabels(doc: seq<RenderedPage>): seq<LabelCells> {
    Flatten(MapSeq(doc, (p: RenderedPage) => p.labels))
  }

  /** Paginates, then renders each label of each page. */
  function RenderDocument<T>(labels: seq<T>, render: T -> LabelCells): (doc: seq<RenderedPage>)
    ensures |doc| == |Paginate(labels)|
    ensures forall i :: 0 <= i < |doc| ==> doc[i].labels == MapSeq(Paginate(labels)[i], render)
    ensures forall i {:trigger doc[i].pageNumber} :: 0 <= i < |doc| ==> doc[i].pageNumber == PageNumber(i, |doc|)
  {
    var pages := Paginate(labels);
    var rendered := MapSeq(pages, (page: seq<T>) => MapSeq(page, render));
    assert forall i :: 0 <= i < |pages| ==> rendered[i] == MapSeq(pages[i], render);
    NumberPages(rendered)
  }

  /** The shape of every document: at least one page, the labels in input order,
      `ceil(n / 10)` pages of ten but the last, and an empty input giving one empty page. */
  lemma DocumentShape<T>(labels: seq<T>, render: T -> LabelCells)
    ensures var doc := RenderDocument(labels, render);
            && |doc| >= 1
            && DocumentLabels(doc) == MapSeq(labels, render)
            && (|labels| == 0 ==> |doc| == 1 && doc[0].labels == [])
            && (|labels| > 0 ==> |doc| == CeilDiv(|labels|, LabelsPerPage))
            && (forall i :: 0 <= i < |doc| - 1 ==> |doc[i].labels| == LabelsPerPage)
            && |doc[|doc| - 1].labels| == |labels| - LabelsPerPage * (|doc| - 1)
  {
    DocumentLabelsInOrder(labels, render);
    DocumentPageSizes(labels, render);
  }

  /** Reading a document page after page gives back the rendered labels in input order. */
  lemma DocumentLabelsInOrder<T>(labels: seq<T>, render: T -> LabelCells)
    ensures DocumentLabels(RenderDocument(labels, render)) == MapSeq(labels, render)
  {
    var pages := Paginate(labels);
    var renderPage := (page: seq<T>) => MapSeq(page, render);
    NumberedPageLabels(MapSeq(pages, renderPage));
    FlattenMap(pages, render);
  }

  /** A document has `ceil(n / 10)` pages, at least one, all full but the last. */
  lemma DocumentPageSizes<T>(labels: seq<T>, render: T -> LabelCells)
    ensures var doc := RenderDocument(labels, render);
            && |doc| >= 1
            && (|labels| == 0 ==> |doc| == 1 && doc[0].labels == [])
            && (|labels| > 0 ==> |doc| == CeilDiv(|labels|, LabelsPerPage))
            && (forall i :: 0 <= i < |doc| - 1 ==> |doc[i].labels| == LabelsPerPage)
            && |doc[|doc| - 1].labels| == |labels| - LabelsPerPage * (|doc| - 1)
  {
  }

  /** `LabelDocument`: `data || []`, rendered without QR images. */
  function PlainDocument(data: Option<seq<PrintableLabel>>, header: Option<PrintHeader>): (doc: seq<RenderedPage>)
    ensures |doc| >= 1
    ensures var printed, labels := DocumentLabels(doc), data.GetOr([]);
            && |printed| == |labels|
            && forall k :: 0 <= k < |labels| ==> printed[k] == RenderLabel(labels[k], header, None, None)
  {
    var render := (item: PrintableLabel) => RenderLabel(item, header, None, None);
    DocumentShape(data.GetOr([]), render);
    RenderDocument(data.GetOr([]), render)
  }

  /** `LabelDocumentWithQR`: every label drawn with its own two codes. */
  function QrDocument(labelsWithQR: seq<EnrichedLabel>, header: Option<PrintHeader>): (doc: seq<RenderedPage>)
    ensures |doc| >= 1
    ensures var printed := DocumentLabels(doc);
            && |printed| == |labelsWithQR|
            && forall k :: 0 <= k < |labelsWithQR| ==>
                 printed[k] == RenderLabel(labelsWithQR[k].item, header,
                                           Some(labelsWithQR[k].qrCode1), Some(labelsWithQR[k].qrCode2))
  {
    var render := (e: EnrichedLabel) => RenderLabel(e.item, header, Some(e.qrCode1), Some(e.qrCode2));
    DocumentShape(labelsWithQR, render);
    RenderDocument(labelsWithQR, render)
  }

  /** An absent or empty label list gives one empty page numbered `1/1`. */
  lemma EmptyDocumentHasOnePage(data: Option<seq<PrintableLabel>>, header: Option<PrintHeader>)
    requires data.None? || data.value == []
    ensures |PlainDocument(data, header)| == 1
    ensures PlainDocument(data, header)[0].labels == []
    ensures PlainDocument(data, header)[0].pageNumber == "1/1"
  {
    var doc := PlainDocument(data, header);
    assert doc[0].pageNumber == PageNumber(0, 1);
    assert NatToString(1) == "1";
  }

  /** The document without QR codes is the QR document whose codes are all `""`:
      an undefined and an empty image source both leave the cell blank. */
  lemma PlainIsBlankQr(data: seq<PrintableLabel>, header: Option<PrintHeader>)
    ensures PlainDocument(Some(data), header)
            == QrDocument(MapSeq(data, (item: PrintableLabel) => EnrichedLabel(item, "", "")), header)
  {
    var blank := MapSeq(data, (item: PrintableLabel) => EnrichedLabel(item, "", ""));
    var plainRender := (item: PrintableLabel) => RenderLabel(item, header, None, None);
    var qrRender := (e: EnrichedLabel) => RenderLabel(e.item, header, Some(e.qrCode1), Some(e.qrCode2));
    assert MapSeq(blank, qrRender) == MapSeq(data, plainRender);
    SameRenderingSameDocument(data, plainRender, blank, qrRender);
  }

  /** Two label lists of equal length whose labels render alike give the same document. */
  lemma SameRenderingSameDocument<A, B>(xs: seq<A>, f: A -> LabelCells, ys: seq<B>, g: B -> LabelCells)
    requires MapSeq(xs, f) == MapSeq(ys, g)
    ensures RenderDocument(xs, f) == RenderDocument(ys, g)
  {
    var px := Paginate(xs);
    var py := Paginate(ys);
    assert |px| == |py| by {
      if |xs| > 0 {
        ChunkCount(xs, LabelsPerPage);
        ChunkCount(ys, LabelsPerPage);
      }
    }
    forall i | 0 <= i < |px|
      ensures MapSeq(px[i], f) == MapSeq(py[i], g)
    {
      if |xs| > 0 {
        SamePageRendering(xs, f, ys, g, i);
      }
    }
  }

  lemma SamePageRendering<A, B>(xs: seq<A>, f: A -> LabelCells, ys: seq<B>, g: B -> LabelCells, i: nat)
    requires MapSeq(xs, f) == MapSeq(ys, g)
    requires |xs| > 0 && i < |Chunks(xs, LabelsPerPage)| && i < |Chunks(ys, LabelsPerPage)|
    ensures MapSeq(Chunks(xs, LabelsPerPage)[i], f) == MapSeq(Chunks(ys, LabelsPerPage)[i], g)
  {
    ChunkWindows(xs, LabelsPerPage, i);
    ChunkWindows(ys, LabelsPerPage, i);
    var lo := LabelsPerPage * i;
    var hi := Min(lo + LabelsPerPage, |xs|);
    assert MapSeq(xs[lo..hi], f) == MapSeq(xs, f)[lo..hi];
    assert MapSeq(ys[lo..hi], g) == MapSeq(ys, g)[lo..hi];
  }

  /** A batch of 23 labels prints on three pages of 10, 10 and 3, the last numbered `3/3`. */
  lemma TwentyThreeLabels(labelsWithQR: seq<EnrichedLabel>, header: Option<PrintHeader>)
    requires |labelsWithQR| == 23
    ensures var doc := QrDocument(labelsWithQR, header);
            |doc| == 3 && |doc[0].labels| == 10 && |doc[1].labels| == 10 && |doc[2].labels| == 3
            && doc[2].pageNumber == "3/3"
  {
    DocumentShape(labelsWithQR,
      (e: EnrichedLabel) => RenderLabel(e.item, header, Some(e.qrCode1), Some(e.qrCode2)));
    assert CeilDiv(23, 10) == 3;
    assert NatToString(3) == "3";
  }
}

=== FILE: label_fields.dfy ===
/**
 * The values a single label shows (`SingleLabel`). Every cell is always
 * present; a missing or empty field shows its placeholder instead, following
 * JavaScript `||`, so an empty string falls back just like a missing one.
 */
module LabelFields {
  import opened Wrappers
  import opened JsText
  import opened LabelTypes
  import PrintDataWrap

  /** The supplier number printed on every label; it never varies. */
  const SupplierNo := "3000474"

  /** The cell values of one rendered label. A QR slot holds the image source when one is drawn. */
  datatype LabelCells = LabelCells(
    supplierNo: string,
    jobNo: string,
    backNo: string,
    tmminId: string,
    partNo: string,
    partName: string,
    lotNo: string,
    model: string,
    date: string,
    qty: int,
    prodNo: string,
    characteristic: string,
    printDataLines: seq<string>,
    qrImage1: Option<string>,
    qrImage2: Option<string>)

  /** `{qrCode && <Image src={qrCode} />}`: an image only for a present, non-empty source. */
  function QrImage(code: Option<string>): (r: Option<string>)
    ensures r.Some? <==> Truthy(code)
    ensures r.Some? ==> r == code
  {
    if Truthy(code) then code else None
  }

  /** `item.qty || 0`. */
  function QtyCell(qty: Option<int>): (r: int)
    ensures r == qty.GetOr(0)
  {
    if qty.Some? && qty.value != 0 then qty.value else 0
  }

  /** `prodHeader?.prod_no || ''`. */
  function ProdNoCell(header: Option<PrintHeader>): (r: string)
    ensures header.Some? && Truthy(header.value.prodNo) ==> r == header.value.prodNo.value
    ensures header.None? || !Truthy(header.value.prodNo) ==> r == ""
  {
    if header.Some? then Or(header.value.prodNo, "") else ""
  }

  /** Renders one label: each field shows its own value when it is present and
      non-empty and its placeholder otherwise. */
  function RenderLabel(item: PrintableLabel, header: Option<PrintHeader>,
                       qrCode1: Option<string>, qrCode2: Option<string>): (c: LabelCells)
    ensures c.supplierNo == SupplierNo
    ensures Truthy(item.uniqueNo) ==> c.jobNo == item.uniqueNo.value
    ensures !Truthy(item.uniqueNo) ==> c.jobNo == " - "
    ensures Truthy(item.backNo) ==> c.backNo == item.backNo.value
    ensures !Truthy(item.backNo) ==> c.backNo == "-"
    ensures Truthy(item.tmminId) ==> c.tmminId == item.tmminId.value
    ensures !Truthy(item.tmminId) ==> c.tmminId == "-"
    ensures Truthy(item.partNo) ==> c.partNo == item.partNo.value
    ensures !Truthy(item.partNo) ==> c.partNo == ""
    ensures Truthy(item.description) ==> c.partName == item.description.value
    ensures !Truthy(item.description) ==> c.partName == ""
    ensures c.lotNo == item.lotNo + " "
    ensures Truthy(item.model) ==> c.model == item.model.value
    ensures !Truthy(item.model) ==> c.model == ""
    ensures Truthy(item.date) ==> c.date == item.date.value
    ensures !Truthy(item.date) ==> c.date == ""
    ensures item.qty.Some? ==> c.qty == item.qty.value
    ensures item.qty.None? ==> c.qty == 0
    ensures header.Some? && Truthy(header.value.prodNo) ==> c.prodNo == header.value.prodNo.value
    ensures header.None? || !Truthy(header.value.prodNo) ==> c.prodNo == ""
    ensures Truthy(item.karakteristik) ==> c.characteristic == item.karakteristik.value
    ensures !Truthy(item.karakteristik) ==> c.characteristic == ""
    ensures c.printDataLines == PrintDataWrap.WrapPrintData(item.printData)
    ensures c.qrImage1.Some? <==> Truthy(qrCode1)
    ensures c.qrImage2.Some? <==> Truthy(qrCode2)
    ensures c.qrImage1 == QrImage(qrCode1) && c.qrImage2 == QrImage(qrCode2)
  {
    LabelCells(
      supplierNo := SupplierNo,
      jobNo := Or(item.uniqueNo, " - "),
      backNo := Or(item.backNo, "-"),
      tmminId := Or(item.tmminId, "-"),
      partNo := Or(item.partNo, ""),
      partName := Or(item.description, ""),
      // `{item.lot_no || ''} ` keeps the literal space before `</Text>`
      lotNo := (if item.lotNo != "" then item.lotNo else "") + " ",
      model := Or(item.model, ""),
      date := Or(item.date, ""),
      qty := QtyCell(item.qty),
      prodNo := ProdNoCell(header),
      characteristic := Or(item.karakteristik, ""),
      printDataLines := PrintDataWrap.WrapPrintData(item.printData),
      qrImage1 := QrImage(qrCode1),
      qrImage2 := QrImage(qrCode2))
  }

  /** A label whose optional fields are all missing still renders, every cell showing its placeholder. */
  lemma BareLabelShowsPlaceholders(labelId: int, lotNo: string, qty: int)
    ensures var bare := PrintableLabel(labelId, lotNo, None, None, None, None, None, Some(qty), None, None, None, None);
            RenderLabel(bare, None, None, None)
            == LabelCells(SupplierNo, " - ", "-", "-", "", "", lotNo + " ", "", "", qty, "", "", [""], None, None)
  {
    PrintDataWrap.ShortTextIsOneLine(None);
  }
}

=== FILE: label_grid.dfy ===
/**
 * The fixed geometry of one label in grid units: 12 columns by 11 rows.
 * Every cell of `SingleLabel` is a leaf spanning whole columns and rows;
 * flex rows and columns nest them. Point sizes follow from the column
 * pitch `LabelWidth / 12`.
 */
module LabelGrid {

  const LabelWidth := 288
  const LabelHeight := 161
  const GridColumns := 12
  const GridRows := 11

  /** Column pitch in points (`COL_WIDTH`). */
  const ColWidth := LabelWidth / GridColumns

  /** The cells of a label, in source order. */
  datatype Slot =
    | Logo
    | SupplierNoHeading | JobNoHeading | BackNoHeading | TmminIdHeading
    | SupplierNoValue | JobNoValue | BackNoValue | TmminIdValue
    | PartNoHeading | PartNoValue | PartNoSpare | Qr1Heading | Qr2Heading
    | PartNameHeading | PartNameValue | PartNameSpare
    | LotNoHeading | LotNoValue | LotNoSpare
    | OperatorHeading | OperatorSpare | OperatorName | ModelValue
    | DateShiftHeading | DateSpare | DateValue | DayShift | NightShift
    | StatusHeading | QtyHeading | QualityHeading | PicDeliveryHeading
    | StatusValue | QtyValue | QualityValue | PicDeliveryValue
    | Qr1Image | ProdNoValue | CharacteristicsHeading | CharacteristicsValue
    | PrintDataText | Qr2Image

  /** A cell spanning `cols` × `rows` grid units, or a flex row / flex column of boxes. */
  datatype Box =
    | Leaf(slot: Slot, cols: nat, rows: nat)
    | Row(kids: Boxes)
    | Column(kids: Boxes)

  /** The children of a flex container, first to last. */
  datatype Boxes = Nil | Cons(head: Box, tail: Boxes)

  function Width(b: Box): nat {
    match b
    case Leaf(_, c, _) => c
    case Row(kids) => SumWidths(kids)
    case Column(kids) => if kids.Nil? then 0 else Width(kids.head)
  }

  function Height(b: Box): nat {
    match b
    case Leaf(_, _, r) => r
    case Row(kids) => if kids.Nil? then 0 else Height(kids.head)
    case Column(kids) => SumHeights(kids)
  }

  function SumWidths(kids: Boxes): nat {
    match kids
    case Nil => 0
    case Cons(b, rest) => Width(b) + SumWidths(rest)
  }

  function SumHeights(kids: Boxes): nat {
    match kids
    case Nil => 0
    case Cons(b, rest) => Height(b) + SumHeights(rest)
  }

  /** Total area of the leaves. */
  function Area(b: Box): nat {
    match b
    case Leaf(_, c, r) => c * r
    case Row(kids) => SumAreas(kids)
    case Column(kids) => SumAreas(kids)
  }

  function SumAreas(kids: Boxes): nat {
    match kids
    case Nil => 0
    case Cons(b, rest) => Area(b) + SumAreas(rest)
  }

  /** A box tiles when every flex row holds boxes of one height and every flex
      column boxes of one width, all the way down: no gap, no overhang. */
  predicate Tiles(b: Box) {
    match b
    case Leaf(_, _, _) => true
    case Row(kids) => AllTile(kids) && AllOfHeight(kids, Height(b))
    case Column(kids) => AllTile(kids) && AllOfWidth(kids, Width(b))
  }

  predicate AllTile(kids: Boxes) {
    match kids
    case Nil => true
    case Cons(b, rest) => Tiles(b) && AllTile(rest)
  }

  predicate AllOfHeight(kids: Boxes, h: nat) {
    match kids
    case Nil => true
    case Cons(b, rest) => Height(b) == h && AllOfHeight(rest, h)
  }

  predicate AllOfWidth(kids: Boxes, w: nat) {
    match kids
    case Nil => true
    case Cons(b, rest) => Width(b) == w && AllOfWidth(rest, w)
  }

  /** A tiled box covers its bounding rectangle exactly. */
  lemma {:induction false} TiledAreaIsRectangle(b: Box)
    requires Tiles(b)
    ensures Area(b) == Width(b) * Height(b)
  {
    match b
    case Leaf(_, _, _) =>
    case Row(kids) =>
      RowArea(kids, Height(b));
    case Column(kids) =>
      ColumnArea(kids, Width(b));
  }

  lemma {:induction false} RowArea(kids: Boxes, h: nat)
    requires AllTile(kids) && AllOfHeight(kids, h)
    ensures SumAreas(kids) == SumWidths(kids) * h
  {
    match kids
    case Nil =>
    case Cons(b, rest) =>
      TiledAreaIsRectangle(b);
      RowArea(rest, h);
      Distribute(Width(b), SumWidths(rest), h);
  }

  lemma {:induction false} ColumnArea(kids: Boxes, w: nat)
    requires AllTile(kids) && AllOfWidth(kids, w)
    ensures SumAreas(kids) == w * SumHeights(kids)
  {
    match kids
    case Nil =>
    case Cons(b, rest) =>
      TiledAreaIsRectangle(b);
      ColumnArea(rest, w);
      Distribute(Height(b), SumHeights(rest), w);
  }

  lemma Distribute(a: nat, b: nat, c: nat)
    ensures (a + b) * c == a * c + b * c
    ensures c * (a + b) == c * a + c * b
  {
  }

  function Boxes2(a: Box, b: Box): Boxes {
    Cons(a, Cons(b, Nil))
  }

  function Boxes3(a: Box, b: Box, c: Box): Boxes {
    Cons(a, Boxes2(b, c))
  }

  function Boxes4(a: Box, b: Box, c: Box, d: Box): Boxes {
    Cons(a, Boxes3(b, c, d))
  }

  function Boxes5(a: Box, b: Box, c: Box, d: Box, e: Box): Boxes {
    Cons(a, Boxes4(b, c, d, e))
  }

  /** Three tiled boxes of one height side by side tile a box as wide as all three. */
  lemma RowOfThree(a: Box, b: Box, c: Box)
    requires Tiles(a) && Tiles(b) && Tiles(c)
    requires Height(b) == Height(a) && Height(c) == Height(a)
    ensures var r := Row(Boxes3(a, b, c));
            Tiles(r) && Width(r) == Width(a) + Width(b) + Width(c) && Height(r) == Height(a)
  {
    var k3 := Cons(c, Nil);
    var k2 := Cons(b, k3);
    assert SumWidths(Nil) == 0;
    assert AllTile(k3);
    assert AllOfHeight(k3, Height(a));
    assert SumWidths(k3) == Width(c);
    assert AllTile(k3) && AllOfHeight(k3, Height(a)) && SumWidths(k3) == Width(c);
    assert AllTile(k2) && AllOfHeight(k2, Height(a)) && SumWidths(k2) == Width(b) + Width(c);
  }

  /** Three tiled boxes of one width stacked tile a box as tall as all three. */
  lemma ColumnOfThree(a: Box, b: Box, c: Box)
    requires Tiles(a) && Tiles(b) && Tiles(c)
    requires Width(b) == Width(a) && Width(c) == Width(a)
    ensures var r := Column(Boxes3(a, b, c));
            Tiles(r) && Height(r) == Height(a) + Height(b) + Height(c) && Width(r) == Width(a)
  {
    var k3 := Cons(c, Nil);
    var k2 := Cons(b, k3);
    assert SumHeights(Nil) == 0;
    assert AllTile(k3);
    assert AllOfWidth(k3, Width(a));
    assert SumHeights(k3) == Height(c);
    assert AllTile(k3) && AllOfWidth(k3, Width(a)) && SumHeights(k3) == Height(c);
    assert AllTile(k2) && AllOfWidth(k2, Width(a)) && SumHeights(k2) == Height(b) + Height(c);
  }

  /** Four equal cells side by side. */
  function Quad(a: Slot, b: Slot, c: Slot, d: Slot, cols: nat, rows: nat): Box {
    Row(Boxes4(Leaf(a, cols, rows), Leaf(b, cols, rows), Leaf(c, cols, rows), Leaf(d, cols, rows)))
  }

  /** Rows 1–2: the logo over four columns beside the 8-column supplier header block (4+8). */
  function TopBand(): (b: Box)
    ensures Tiles(b) && Width(b) == GridColumns && Height(b) == 2
  {
    var headings := Quad(SupplierNoHeading, JobNoHeading, BackNoHeading, TmminIdHeading, 2, 1);
    var values := Quad(SupplierNoValue, JobNoValue, BackNoValue, TmminIdValue, 2, 1);
    Row(Boxes2(Leaf(Logo, 4, 2), Column(Boxes2(headings, values))))
  }

  /** Row 3: part number heading and value, a spare column, and the two QR headings (2+5+1+2+2). */
  function PartNoBand(): (b: Box)
    ensures Tiles(b) && Width(b) == GridColumns && Height(b) == 1
  {
    Row(Boxes5(Leaf(PartNoHeading, 2, 1), Leaf(PartNoValue, 5, 1), Leaf(PartNoSpare, 1, 1),
               Leaf(Qr1Heading, 2, 1), Leaf(Qr2Heading, 2, 1)))
  }

  /** Row 4, columns 1–8: the part name heading, value and a spare cell (2+5+1). */
  function PartNameRow(): (b: Box)
    ensures Tiles(b) && Width(b) == 8 && Height(b) == 1
  {
    Row(Boxes3(Leaf(PartNameHeading, 2, 1), Leaf(PartNameValue, 5, 1), Leaf(PartNameSpare, 1, 1)))
  }

  /** Row 5, columns 1–8: the lot number heading, value and a spare cell (2+5+1). */
  function LotNoRow(): (b: Box)
    ensures Tiles(b) && Width(b) == 8 && Height(b) == 1
  {
    Row(Boxes3(Leaf(LotNoHeading, 2, 1), Leaf(LotNoValue, 5, 1), Leaf(LotNoSpare, 1, 1)))
  }

  /** Row 6, columns 1–8: the operator heading, a spare cell, the operator name and the model (2+1+3+2). */
  function OperatorRow(): (b: Box)
    ensures Tiles(b) && Width(b) == 8 && Height(b) == 1
  {
    Row(Boxes4(Leaf(OperatorHeading, 2, 1), Leaf(OperatorSpare, 1, 1),
               Leaf(OperatorName, 3, 1), Leaf(ModelValue, 2, 1)))
  }

  /** Rows 7–8, columns 1–8: date/shift heading, spare, date, day and night shift boxes (2+1+3+1+1). */
  function DateShiftRow(): (b: Box)
    ensures Tiles(b) && Width(b) == 8 && Height(b) == 2
  {
    Row(Boxes5(Leaf(DateShiftHeading, 2, 2), Leaf(DateSpare, 1, 2), Leaf(DateValue, 3, 2),
               Leaf(DayShift, 1, 2), Leaf(NightShift, 1, 2)))
  }

  /** Row 9, columns 1–8: the status, quantity, quality and PIC/delivery headings (2+2+2+2). */
  function StatusHeadingRow(): (b: Box)
    ensures Tiles(b) && Width(b) == 8 && Height(b) == 1
  {
    Quad(StatusHeading, QtyHeading, QualityHeading, PicDeliveryHeading, 2, 1)
  }

  /** Rows 10–11, columns 1–8: the four status values below their headings (2+2+2+2). */
  function StatusValueRow(): (b: Box)
    ensures Tiles(b) && Width(b) == 8 && Height(b) == 2
  {
    Quad(StatusValue, QtyValue, QualityValue, PicDeliveryValue, 2, 2)
  }

  /** Rows 4–11, columns 1–8: six rows of heights 1, 1, 1, 2, 1, 2, each 8 columns wide. */
  function LeftStack(): (b: Box)
    ensures Tiles(b) && Width(b) == 8 && Height(b) == 8
  {
    var k6 := Cons(StatusValueRow(), Nil);
    var k5 := Cons(StatusHeadingRow(), k6);
    var k4 := Cons(DateShiftRow(), k5);
    var k3 := Cons(OperatorRow(), k4);
    var k2 := Cons(LotNoRow(), k3);
    var k1 := Cons(PartNameRow(), k2);
    assert AllTile(k6) && AllOfWidth(k6, 8) && SumHeights(k6) == 2;
    assert AllTile(k5) && AllOfWidth(k5, 8) && SumHeights(k5) == 3;
    assert AllTile(k4) && AllOfWidth(k4, 8) && SumHeights(k4) == 5;
    assert AllTile(k3) && AllOfWidth(k3, 8) && SumHeights(k3) == 6;
    assert AllTile(k2) && AllOfWidth(k2, 8) && SumHeights(k2) == 7;
    assert AllTile(k1) && AllOfWidth(k1, 8) && SumHeights(k1) == 8;
    Column(k1)
  }

  /** Columns 9–10: QR-1 over four rows, the order number, the characteristics heading and value (4+1+1+2). */
  function Qr1Strip(): (b: Box)
    ensures Tiles(b) && Width(b) == 2 && Height(b) == 8
  {
    Column(Boxes4(Leaf(Qr1Image, 2, 4), Leaf(ProdNoValue, 2, 1),
                  Leaf(CharacteristicsHeading, 2, 1), Leaf(CharacteristicsValue, 2, 2)))
  }

  /** Columns 11–12: the wrapped print data over two rows above QR-2 over six (2+6). */
  function Qr2Strip(): (b: Box)
    ensures Tiles(b) && Width(b) == 2 && Height(b) == 8
  {
    Column(Boxes2(Leaf(PrintDataText, 2, 2), Leaf(Qr2Image, 2, 6)))
  }

  /** Rows 4–11: the left stack beside the two QR strips (8+2+2). */
  function BodyBand(): (b: Box)
    ensures Tiles(b) && Width(b) == GridColumns && Height(b) == 8
  {
    RowOfThree(LeftStack(), Qr1Strip(), Qr2Strip());
    Row(Boxes3(LeftStack(), Qr1Strip(), Qr2Strip()))
  }

  /** The whole label: bands of heights 2, 1 and 8 stacked into the 12 × 11 grid. */
  function LabelLayout(): (b: Box)
    ensures Tiles(b) && Width(b) == GridColumns && Height(b) == GridRows
    ensures Area(b) == GridColumns * GridRows
  {
    ColumnOfThree(TopBand(), PartNoBand(), BodyBand());
    var b := Column(Boxes3(TopBand(), PartNoBand(), BodyBand()));
    TiledAreaIsRectangle(b);
    b
  }

  /** The column pitch is whole, so the twelve grid columns span exactly the label width. */
  lemma GridSpansLabelWidth()
    ensures LabelWidth % GridColumns == 0
    ensures ColWidth * GridColumns == LabelWidth
  {
  }
}

=== FILE: label_selection.dfy ===
/**
 * The label detail screen: toggling one label, the select-all header
 * checkbox, the lot-number search, and the print button's guard and batch.
 * The selection is a set of label ids; the batch printed is taken from all
 * loaded labels, not only the ones the search shows.
 */
module LabelSelection {
  import opened Wrappers
  import opened JsText
  import opened Seqs
  import opened LabelTypes
  import opened LabelFields
  import opened LabelDocument
  import opened QrEnrichment
  import opened SearchFilter

  /** `handleLabelSelect`: remove the id when selected, add it otherwise. */
  function ToggleLabel(selected: set<int>, labelId: int): (r: set<int>)
    ensures labelId in r <==> labelId !in selected
    ensures forall id :: id != labelId ==> (id in r <==> id in selected)
  {
    if labelId in selected then selected - {labelId} else selected + {labelId}
  }

  /** Clicking a row checkbox twice leaves the selection as it was. */
  lemma ToggleTwice(selected: set<int>, labelId: int)
    ensures ToggleLabel(ToggleLabel(selected, labelId), labelId) == selected
  {
    var once := ToggleLabel(selected, labelId);
    var twice := ToggleLabel(once, labelId);
    assert forall id :: id in twice <==> id in selected;
  }

  /** The ids of some labels (`new Set(labels.map(item => item.label_id))`). */
  function LabelIds(labels: seq<PrintableLabel>): (ids: set<int>)
    ensures forall id :: id in ids <==> exists i :: 0 <= i < |labels| && labels[i].labelId == id
  {
    set i | 0 <= i < |labels| :: labels[i].labelId
  }

  /** No two labels share an id. */
  predicate DistinctIds(labels: seq<PrintableLabel>) {
    forall i, j :: 0 <= i < j < |labels| ==> labels[i].labelId != labels[j].labelId
  }

  /** The ids of a non-empty run of labels: the first one's id and the rest's. */
  lemma LabelIdsCons(labels: seq<PrintableLabel>)
    requires |labels| > 0
    ensures LabelIds(labels) == {labels[0].labelId} + LabelIds(labels[1..])
  {
    var rest := labels[1..];
    forall id | id in LabelIds(labels) ensures id in {labels[0].labelId} + LabelIds(rest) {
      var i :| 0 <= i < |labels| && labels[i].labelId == id;
      if i > 0 {
        assert rest[i - 1].labelId == id;
      }
    }
    forall id | id in LabelIds(rest) ensures id in LabelIds(labels) {
      var i :| 0 <= i < |rest| && rest[i].labelId == id;
      assert labels[i + 1].labelId == id;
    }
  }

  /** With distinct ids there are exactly as many ids as labels. */
  lemma {:induction false} DistinctIdsCount(labels: seq<PrintableLabel>)
    requires DistinctIds(labels)
    ensures |LabelIds(labels)| == |labels|
    decreases |labels|
  {
    if |labels| > 0 {
      var rest := labels[1..];
      assert DistinctIds(rest) by {
        forall i, j | 0 <= i < j < |rest| ensures rest[i].labelId != rest[j].labelId {
          assert rest[i] == labels[i + 1] && rest[j] == labels[j + 1];
        }
      }
      DistinctIdsCount(rest);
      LabelIdsCons(labels);
      forall i | 0 <= i < |rest| ensures rest[i].labelId != labels[0].labelId {
        assert rest[i] == labels[i + 1];
      }
    }
  }

  /** A proper subset is strictly smaller. */
  lemma ProperSubsetSize(a: set<int>, b: set<int>)
    requires a < b
    ensures |a| < |b|
  {
    assert b == a + (b - a);
    assert a * (b - a) == {};
    assert b - a != {};
  }

  /** Whether the row checkbox of `item` is ticked. */
  predicate RowChecked(selected: set<int>, item: PrintableLabel) {
    item.labelId in selected
  }

  /** Clicking the checkbox of label `labelId` flips the checkbox of every row with that id and of no other row. */
  lemma ToggleFlipsOnlyItsRows(selected: set<int>, labelId: int, item: PrintableLabel)
    ensures RowChecked(ToggleLabel(selected, labelId), item)
            <==> (if item.labelId == labelId then !RowChecked(selected, item) else RowChecked(selected, item))
  {
  }

  // ---- The select-all checkbox as written: it compares sizes only ----

  /** The header checkbox as written: as many ids selected as labels shown, and some shown. */
  predicate HeaderChecked(selected: set<int>, filtered: seq<PrintableLabel>) {
    |selected| == |filtered| && |filtered| > 0
  }

  /** `handleSelectAll` as written: clear when the header is ticked, else select exactly the shown labels. */
  function SelectAll(selected: set<int>, filtered: seq<PrintableLabel>): (r: set<int>)
    ensures HeaderChecked(selected, filtered) ==> r == {}
    ensures !HeaderChecked(selected, filtered) ==>
              forall id :: id in r <==> exists i :: 0 <= i < |filtered| && filtered[i].labelId == id
  {
    if HeaderChecked(selected, filtered) then {} else LabelIds(filtered)
  }

  /** Select-all empties the selection exactly when the header was ticked or nothing is shown. */
  lemma SelectAllClearsIffChecked(selected: set<int>, filtered: seq<PrintableLabel>)
    ensures SelectAll(selected, filtered) == {} <==> HeaderChecked(selected, filtered) || |filtered| == 0
  {
    if !HeaderChecked(selected, filtered) && |filtered| > 0 {
      assert filtered[0].labelId in SelectAll(selected, filtered);
    }
  }

  /** With distinct ids and nothing selected outside the shown labels, the size test is the right test. */
  lemma SizeTestSoundWithoutHiddenSelection(selected: set<int>, filtered: seq<PrintableLabel>)
    requires DistinctIds(filtered)
    requires selected <= LabelIds(filtered)
    ensures HeaderChecked(selected, filtered) <==> HeaderCheckedByContents(selected, filtered)
  {
    DistinctIdsCount(filtered);
    if HeaderChecked(selected, filtered) {
      if selected != LabelIds(filtered) {
        ProperSubsetSize(selected, LabelIds(filtered));
      }
    }
    if HeaderCheckedByContents(selected, filtered) {
      assert selected == LabelIds(filtered);
    }
  }

  /** A label with the given id and lot number and no other field. */
  function BareLabel(labelId: int, lotNo: string): PrintableLabel {
    PrintableLabel(labelId, lotNo, None, None, None, None, None, None, None, None, None, None)
  }

  /** Searching lot "A" among lots "A" and "B" shows only the first label. */
  lemma LotSearchForA()
    ensures LotNoFilter([BareLabel(1, "A"), BareLabel(2, "B")], "A") == [BareLabel(1, "A")]
  {
    var a, b := BareLabel(1, "A"), BareLabel(2, "B");
    SearchForAMatchesOnlyA();
    var p := (l: PrintableLabel) => Matches(l.lotNo, "A");
    assert LotNoFilter([a, b], "A") == Filter([a, b], p);
    FilterOfTwo(a, b, p);
  }

  /** The term `"A"` is not blank, finds `"A"` and does not find `"B"`. */
  lemma SearchForAMatchesOnlyA()
    ensures Trim("A") != "" && Matches("A", "A") && !Matches("B", "A")
  {
    assert !IsWhitespace('A');
    assert ToLower("A") == "a" && ToLower("B") == "b";
    assert OccursAt("a", "a", 0);
    forall i ensures !OccursAt("b", "a", i) {
      if i == 0 {
        assert "b"[0..1] == "b";
      }
    }
  }

  /** Filtering two elements of which only the first passes keeps the first. */
  lemma FilterOfTwo<T(!new)>(a: T, b: T, p: T -> bool)
    requires p(a) && !p(b)
    ensures Filter([a, b], p) == [a]
  {
    assert [a, b][1..] == [b];
    assert [b][1..] == [];
  }


  /**
   * A label selected and then hidden by the lot search fools the size test:
   * with one of two labels shown and the other one selected, the header is
   * ticked although the shown row is not, and clicking it clears the hidden
   * selection instead of selecting the shown label. With both selected and
   * one shown, the header is unticked although every shown row is ticked.
   */
  lemma HiddenSelectionMisleadsHeader()
    ensures var a, b := BareLabel(1, "A"), BareLabel(2, "B");
            && LotNoFilter([a, b], "A") == [a]
            && HeaderChecked({2}, [a]) && !RowChecked({2}, a)
            && SelectAll({2}, [a]) == {}
            && !HeaderChecked({1, 2}, [a]) && RowChecked({1, 2}, a)
            && SelectAll({1, 2}, [a]) == {1}
  {
    var a := BareLabel(1, "A");
    LotSearchForA();
    assert |{2}| == 1;
    assert |{1, 2}| == 2;
    assert [a][0].labelId == 1;
    assert forall id :: id in LabelIds([a]) <==> id == 1;
    assert SelectAll({1, 2}, [a]) == LabelIds([a]);
  }

  // ---- The select-all checkbox compared by contents ----

  /** The header checkbox ticked exactly when some labels are shown and all of their ids are selected. */
  predicate HeaderCheckedByContents(selected: set<int>, filtered: seq<PrintableLabel>) {
    |filtered| > 0 && LabelIds(filtered) <= selected
  }

  /** Select-all with the contents test in place of the size test. */
  function SelectAllByContents(selected: set<int>, filtered: seq<PrintableLabel>): (r: set<int>)
    ensures HeaderCheckedByContents(selected, filtered) ==> r == {}
    ensures !HeaderCheckedByContents(selected, filtered) ==> r == LabelIds(filtered)
  {
    if HeaderCheckedByContents(selected, filtered) then {} else LabelIds(filtered)
  }

  /** The corrected header agrees with the rows: ticked iff some row is shown and every shown row is ticked. */
  lemma HeaderAgreesWithRows(selected: set<int>, filtered: seq<PrintableLabel>)
    ensures HeaderCheckedByContents(selected, filtered) <==>
              |filtered| > 0 && forall i :: 0 <= i < |filtered| ==> RowChecked(selected, filtered[i])
  {
    if |filtered| > 0 && forall i :: 0 <= i < |filtered| ==> RowChecked(selected, filtered[i]) {
      forall id | id in LabelIds(filtered) ensures id in selected {
        var i :| 0 <= i < |filtered| && filtered[i].labelId == id;
        assert RowChecked(selected, filtered[i]);
      }
    }
    if HeaderCheckedByContents(selected, filtered) {
      forall i | 0 <= i < |filtered| ensures RowChecked(selected, filtered[i]) {
        assert filtered[i].labelId in LabelIds(filtered);
      }
    }
  }

  /** With the corrected test a click always flips the header checkbox while labels are shown. */
  lemma SelectAllByContentsFlips(selected: set<int>, filtered: seq<PrintableLabel>)
    requires |filtered| > 0
    ensures HeaderCheckedByContents(SelectAllByContents(selected, filtered), filtered)
            <==> !HeaderCheckedByContents(selected, filtered)
  {
    assert filtered[0].labelId in LabelIds(filtered);
  }

  // ---- Lot-number search and printing ----

  /** The lot-number filter effect: search the loaded labels by `lot_no`. */
  function LotNoFilter(labelData: seq<PrintableLabel>, term: string): (shown: seq<PrintableLabel>)
    ensures IsBlank(term) ==> shown == labelData
    ensures !IsBlank(term) ==> forall l :: l in shown <==> l in labelData && Matches(l.lotNo, term)
    ensures !IsBlank(term) ==> KeepsCounts(shown, labelData, (l: PrintableLabel) => Matches(l.lotNo, term))
    ensures IsSubsequence(shown, labelData)
  {
    Search(labelData, (l: PrintableLabel) => l.lotNo, term)
  }

  /** `handlePrint`'s guard and batch: nothing with an empty selection, else every loaded label whose id is selected, in load order. */
  function PrintSelection(labelData: seq<PrintableLabel>, selected: set<int>)
    : (batch: Option<seq<PrintableLabel>>)
    ensures batch.None? <==> |selected| == 0
    ensures batch.Some? ==> IsSubsequence(batch.value, labelData)
    ensures batch.Some? ==> forall l :: l in batch.value <==> l in labelData && l.labelId in selected
    ensures batch.Some? ==> KeepsCounts(batch.value, labelData, (l: PrintableLabel) => l.labelId in selected)
  {
    if |selected| == 0 then None
    else Some(Filter(labelData, (l: PrintableLabel) => l.labelId in selected))
  }

  /** A selected label hidden by the lot search is printed all the same. */
  lemma PrintIncludesHiddenSelections(labelData: seq<PrintableLabel>, selected: set<int>, term: string,
                                      l: PrintableLabel)
    requires l in labelData && l.labelId in selected
    requires l !in LotNoFilter(labelData, term)
    ensures l in PrintSelection(labelData, selected).value
  {
  }

  /** `handlePrint` through to the document: one rendered label per selected loaded label, in load order. */
  function HandlePrint(labelData: seq<PrintableLabel>, selected: set<int>, header: Option<PrintHeader>,
                       encode: Encoder): (doc: Option<seq<RenderedPage>>)
    ensures doc.None? <==> |selected| == 0
    ensures doc.Some? ==>
              var batch := PrintSelection(labelData, selected).value;
              var printed := DocumentLabels(doc.value);
              && |printed| == |batch|
              && forall k :: 0 <= k < |batch| ==>
                   printed[k] == RenderLabel(batch[k], header, Some(SharedQrCode(header, encode)),
                                             Some(LabelQrCode(batch[k], encode)))
  {
    match PrintSelection(labelData, selected)
    case None => None
    case Some(batch) =>
      BuildDocumentLabels(batch, header, encode);
      Some(BuildDocument(Some(batch), header, encode))
  }
}

=== FILE: label_table.dfy ===
/**
 * The production-order list: the order-number search, the client-side
 * paging arithmetic (page count, current window, "Showing a to b of n"),
 * the page and page-size handlers, and the Part Name column.
 */
module LabelTable {
  import opened Wrappers
  import opened JsText
  import opened Seqs
  import opened LabelTypes
  import opened Pagination
  import opened SearchFilter

  /** The page sizes the "Show" select offers. */
  predicate OfferedPageSize(n: nat) {
    n == 10 || n == 20 || n == 30 || n == 50
  }

  /** The list's state: the loaded rows, the search term, the page size and the 1-based page. */
  datatype TableState = TableState(rows: seq<ProdHeader>, term: string, rowsPerPage: nat, currentPage: int)

  /** Before the fetch returns: no rows, no term, ten rows per page, page one. */
  function Initial(): (s: TableState)
    ensures |s.rows| == 0 && s.term == "" && s.rowsPerPage == 10 && s.currentPage == 1
    ensures Valid(s)
  {
    TableState([], "", 10, 1)
  }

  /** The search effect's row list: the rows whose `prod_no` contains the term. */
  function ProdNoFilter(rows: seq<ProdHeader>, term: string): (shown: seq<ProdHeader>)
    ensures IsBlank(term) ==> shown == rows
    ensures !IsBlank(term) ==> forall h :: h in shown <==> h in rows && Matches(h.prodNo, term)
    ensures !IsBlank(term) ==> KeepsCounts(shown, rows, (h: ProdHeader) => Matches(h.prodNo, term))
    ensures IsSubsequence(shown, rows)
  {
    Search(rows, (h: ProdHeader) => h.prodNo, term)
  }

  function Filtered(s: TableState): seq<ProdHeader> {
    ProdNoFilter(s.rows, s.term)
  }

  /** `Math.ceil(total / rowsPerPage)`: the fewest pages of that size that hold every row. */
  function TotalPages(total: nat, rowsPerPage: nat): (pages: nat)
    requires rowsPerPage > 0
    ensures pages == 0 <==> total == 0
    ensures pages * rowsPerPage >= total
    ensures pages == 0 || (pages - 1) * rowsPerPage < total
  {
    if total == 0 then CeilDivZero(rowsPerPage); 0 else CeilDiv(total, rowsPerPage)
  }

  /** What every handler keeps: an offered page size and a page between one and the last (page one when there are none). */
  predicate Valid(s: TableState) {
    && OfferedPageSize(s.rowsPerPage)
    && 1 <= s.currentPage
    && (s.currentPage == 1 || s.currentPage <= TotalPages(|Filtered(s)|, s.rowsPerPage))
  }

  /** Index of the first row on a page (`(currentPage - 1) * rowsPerPage`). */
  function StartIndex(page: int, rowsPerPage: nat): (start: int)
    ensures page >= 1 ==> start == Offset(rowsPerPage, page - 1)
  {
    if page >= 1 then OffsetIsProduct(rowsPerPage, page - 1); (page - 1) * rowsPerPage
    else (page - 1) * rowsPerPage
  }

  /** One past the last row on a page (`Math.min(startIndex + rowsPerPage, totalEntries)`). */
  function EndIndex(page: int, rowsPerPage: nat, total: nat): (end: int)
    ensures end <= total && end <= StartIndex(page, rowsPerPage) + rowsPerPage
    ensures end == total || end == StartIndex(page, rowsPerPage) + rowsPerPage
  {
    Min(StartIndex(page, rowsPerPage) + rowsPerPage, total)
  }

  /** The rows of one page: `filteredData.slice((page - 1) * rowsPerPage, page * rowsPerPage)`. */
  function CurrentData<T>(filtered: seq<T>, page: int, rowsPerPage: nat): (shown: seq<T>)
    requires rowsPerPage > 0
    ensures |shown| <= rowsPerPage
  {
    var shown := Slice(filtered, (page - 1) * rowsPerPage, page * rowsPerPage);
    assert page * rowsPerPage == (page - 1) * rowsPerPage + rowsPerPage;
    shown
  }

  /** The two ends of a page's window, written with one product. */
  lemma PageBounds(page: int, rowsPerPage: nat)
    requires page >= 1
    ensures (page - 1) * rowsPerPage == rowsPerPage * (page - 1)
    ensures page * rowsPerPage == (page - 1) * rowsPerPage + rowsPerPage
  {
  }

  /** Page `page` of the table is the `page`-th chunk of the filtered rows. */
  lemma CurrentDataIsChunk<T>(filtered: seq<T>, page: int, rowsPerPage: nat)
    requires rowsPerPage > 0
    requires 1 <= page <= TotalPages(|filtered|, rowsPerPage)
    ensures |Chunks(filtered, rowsPerPage)| == TotalPages(|filtered|, rowsPerPage)
    ensures CurrentData(filtered, page, rowsPerPage) == Chunks(filtered, rowsPerPage)[page - 1]
  {
    var i: nat := page - 1;
    ChunkCount(filtered, rowsPerPage);
    var lo := Offset(rowsPerPage, i);
    var hi := Min(lo + rowsPerPage, |filtered|);
    assert Chunks(filtered, rowsPerPage)[i] == filtered[lo..hi] by {
      ChunkWindowsAt(filtered, rowsPerPage, i);
    }
    assert CurrentData(filtered, page, rowsPerPage) == filtered[lo..hi] by {
      ChunkWindowsAt(filtered, rowsPerPage, i);
      OffsetIsProduct(rowsPerPage, i);
      PageBounds(page, rowsPerPage);
      assert (page - 1) * rowsPerPage == lo && page * rowsPerPage == lo + rowsPerPage;
      SliceInRange(filtered, (page - 1) * rowsPerPage, page * rowsPerPage);
    }
  }

  /** Walking the pages one to `totalPages` shows every filtered row once, in order. */
  lemma PagesCoverRows<T>(filtered: seq<T>, rowsPerPage: nat)
    requires rowsPerPage > 0
    ensures var pages := seq(TotalPages(|filtered|, rowsPerPage),
                             i requires 0 <= i => CurrentData(filtered, i + 1, rowsPerPage));
            Flatten(pages) == filtered
  {
    var n := TotalPages(|filtered|, rowsPerPage);
    var pages := seq(n, i requires 0 <= i => CurrentData(filtered, i + 1, rowsPerPage));
    ChunkCount(filtered, rowsPerPage);
    forall i | 0 <= i < n ensures pages[i] == Chunks(filtered, rowsPerPage)[i] {
      CurrentDataIsChunk(filtered, i + 1, rowsPerPage);
    }
    assert pages == Chunks(filtered, rowsPerPage);
  }

  /** A page that exists starts inside the rows, and holds `EndIndex - StartIndex` of them. */
  lemma WindowLength<T>(filtered: seq<T>, page: int, rowsPerPage: nat)
    requires rowsPerPage > 0
    requires 1 <= page <= TotalPages(|filtered|, rowsPerPage)
    ensures 0 <= StartIndex(page, rowsPerPage) < |filtered|
    ensures |CurrentData(filtered, page, rowsPerPage)|
            == EndIndex(page, rowsPerPage, |filtered|) - StartIndex(page, rowsPerPage)
  {
    var i: nat := page - 1;
    CurrentDataIsChunk(filtered, page, rowsPerPage);
    ChunkWindowsAt(filtered, rowsPerPage, i);
    OffsetIsProduct(rowsPerPage, i);
    PageBounds(page, rowsPerPage);
    var lo := Offset(rowsPerPage, i);
    assert StartIndex(page, rowsPerPage) == lo;
    assert EndIndex(page, rowsPerPage, |filtered|) == Min(lo + rowsPerPage, |filtered|);
    assert |Chunks(filtered, rowsPerPage)[i]| == Min(lo + rowsPerPage, |filtered|) - lo;
  }

  /** The "Showing a to b of n entries" caption. */
  datatype Caption = Caption(first: int, last: int, total: nat)

  function ShowingCaption(s: TableState): (c: Caption)
    requires s.rowsPerPage > 0
    ensures c.total == |Filtered(s)|
    ensures c.last <= c.total
    ensures s.currentPage >= 1 ==> c.first >= 1
  {
    var total := |Filtered(s)|;
    Caption(StartIndex(s.currentPage, s.rowsPerPage) + 1, EndIndex(s.currentPage, s.rowsPerPage, total), total)
  }

  /** In a valid state the caption counts exactly the rows on screen, 1-based; an empty list reads "1 to 0 of 0". */
  lemma CaptionMatchesRows(s: TableState)
    requires Valid(s)
    ensures var c := ShowingCaption(s);
            var shown := CurrentData(Filtered(s), s.currentPage, s.rowsPerPage);
            && c.total == |Filtered(s)|
            && c.last - c.first + 1 == |shown|
            && (c.total > 0 ==> 1 <= c.first <= c.last <= c.total)
            && (c.total == 0 ==> c == Caption(1, 0, 0))
  {
    var f := Filtered(s);
    if |f| > 0 {
      WindowLength(f, s.currentPage, s.rowsPerPage);
    } else {
      assert StartIndex(1, s.rowsPerPage) == 0;
    }
  }

  /** `handlePageChange`: accept pages one to `totalPages`, ignore anything else. */
  function PageChange(s: TableState, page: int): (r: TableState)
    requires s.rowsPerPage > 0
    ensures 1 <= page <= TotalPages(|Filtered(s)|, s.rowsPerPage) ==> r.currentPage == page
    ensures !(1 <= page <= TotalPages(|Filtered(s)|, s.rowsPerPage)) ==> r == s
    ensures r == s.(currentPage := r.currentPage)
    ensures Valid(s) ==> Valid(r)
  {
    if page >= 1 && page <= TotalPages(|Filtered(s)|, s.rowsPerPage) then s.(currentPage := page) else s
  }

  /** With no rows shown no page change is accepted, not even to page one. */
  lemma EmptyListIgnoresPaging(s: TableState, page: int)
    requires s.rowsPerPage > 0 && |Filtered(s)| == 0
    ensures PageChange(s, page) == s
  {
  }

  /** `handleRowsPerPageChange`: a new page size from the select, back to page one. */
  function RowsPerPageChange(s: TableState, rowsPerPage: nat): (r: TableState)
    requires OfferedPageSize(rowsPerPage)
    ensures Valid(r)
    ensures r.currentPage == 1
    ensures r.rows == s.rows && r.term == s.term && r.rowsPerPage == rowsPerPage
  {
    s.(rowsPerPage := rowsPerPage, currentPage := 1)
  }

  /** A new search term: the filter effect re-filters and goes back to page one. */
  function SearchChange(s: TableState, term: string): (r: TableState)
    requires OfferedPageSize(s.rowsPerPage)
    ensures Valid(r)
    ensures r.currentPage == 1
    ensures Filtered(r) == ProdNoFilter(s.rows, term)
    ensures r.rows == s.rows && r.term == term && r.rowsPerPage == s.rowsPerPage
  {
    s.(term := term, currentPage := 1)
  }

  /** Rows arriving from the fetch: the filter effect applies the current term and goes back to page one. */
  function RowsLoaded(s: TableState, rows: seq<ProdHeader>): (r: TableState)
    requires OfferedPageSize(s.rowsPerPage)
    ensures Valid(r)
    ensures r.currentPage == 1
    ensures Filtered(r) == ProdNoFilter(rows, s.term)
    ensures r.rows == rows && r.term == s.term && r.rowsPerPage == s.rowsPerPage
  {
    s.(rows := rows, currentPage := 1)
  }

  /** The starting state is valid, and every handler keeps validity. */
  lemma HandlersKeepValid(s: TableState, page: int, rowsPerPage: nat, term: string, rows: seq<ProdHeader>)
    requires Valid(s) && OfferedPageSize(rowsPerPage)
    ensures Valid(Initial())
    ensures Valid(PageChange(s, page))
    ensures Valid(RowsPerPageChange(s, rowsPerPage))
    ensures Valid(SearchChange(s, term))
    ensures Valid(RowsLoaded(s, rows))
  {
  }

  /** The Part Name cell, `mat_desc || description`: the material description unless it is missing or empty. */
  function PartName(h: ProdHeader): (name: string)
    ensures Truthy(h.matDesc) ==> name == h.matDesc.value
    ensures !Truthy(h.matDesc) && h.description.Some? ==> name == h.description.value
    ensures !Truthy(h.matDesc) && h.description.None? ==> name == ""
  {
    Or(h.matDesc, h.description.GetOr(""))
  }
}

=== FILE: label_types.dfy ===
/**
 * The records the label screens and the printer exchange. Fields that the
 * code reads through `||` may be missing at run time and are optional here;
 * `lotNo` and `prodNo` are plain strings because the search filters call
 * `toLowerCase` on them without a guard. `ProdHeader` keeps the columns the
 * order list shows; the other columns of the API records (planning date,
 * status, warehouse, the label's customer and lot date, ...) are omitted.
 */
module LabelTypes {
  import opened Wrappers

  /** One printable label (`PrintableLabel`, plus the optional `back_no`,
      `tmmin_id` and `karakteristik` the renderer also reads). */
  datatype PrintableLabel = PrintableLabel(
    labelId: int,
    lotNo: string,
    model: Option<string>,
    uniqueNo: Option<string>,
    partNo: Option<string>,
    description: Option<string>,
    date: Option<string>,
    qty: Option<int>,
    printData: Option<string>,
    backNo: Option<string>,
    tmminId: Option<string>,
    karakteristik: Option<string>)

  /** The production-order context handed to the printer (a partial `ProdHeader`). */
  datatype PrintHeader = PrintHeader(prodNo: Option<string>, prodIndex: Option<string>)

  /** A row of the production-header list (`ProdHeader`, the fields the table shows). */
  datatype ProdHeader = ProdHeader(
    id: int,
    prodIndex: string,
    prodNo: string,
    item: string,
    matDesc: Option<string>,
    description: Option<string>,
    customer: string,
    qtyOrder: int)

  /** A label together with its two QR data URLs (`LabelWithQRCodes`); `""` means no image. */
  datatype EnrichedLabel = EnrichedLabel(item: PrintableLabel, qrCode1: string, qrCode2: string)
}

=== FILE: pagination.dfy ===
/**
 * Cutting the label sequence into pages of ten (the loop in `LabelDocument`
 * and `LabelDocumentWithQR`) and the page-number footer of each page.
 */
module Pagination {
  import opened JsText
  import opened Seqs

  /** Two columns by five rows of labels per A4 page. */
  const LabelsPerPage := 10

  /** Consecutive pieces of `size` elements, the last possibly shorter. */
  function Chunks<T>(xs: seq<T>, size: nat): (pages: seq<seq<T>>)
    requires size > 0
    ensures Flatten(pages) == xs
    ensures |pages| == 0 <==> |xs| == 0
    decreases |xs|
  {
    if |xs| == 0 then
      []
    else
      var k := Min(size, |xs|);
      var rest := Chunks(xs[k..], size);
      var pages := [xs[..k]] + rest;
      assert pages[1..] == rest;
      assert xs == xs[..k] + xs[k..];
      pages
  }

  /** Every chunk holds between one and `size` elements, and all but the last exactly `size`. */
  lemma {:induction false} ChunkSizes<T>(xs: seq<T>, size: nat)
    requires size > 0
    ensures var pages := Chunks(xs, size);
            && (forall i :: 0 <= i < |pages| ==> 1 <= |pages[i]| <= size)
            && (forall i :: 0 <= i < |pages| - 1 ==> |pages[i]| == size)
    decreases |xs|
  {
    if |xs| > 0 {
      var k := Min(size, |xs|);
      ChunksUnfold(xs, size);
      ChunkSizes(xs[k..], size);
      var pages := Chunks(xs, size);
      var rest := Chunks(xs[k..], size);
      forall i | 0 <= i < |pages| ensures 1 <= |pages[i]| <= size {
        if i > 0 { assert pages[i] == rest[i - 1]; }
      }
      forall i | 0 <= i < |pages| - 1 ensures |pages[i]| == size {
        if i > 0 { assert pages[i] == rest[i - 1]; } else { assert |xs[k..]| > 0; }
      }
    }
  }

  /** There are `ceil(|xs| / size)` chunks. */
  lemma {:induction false} ChunkCount<T>(xs: seq<T>, size: nat)
    requires size > 0
    ensures |Chunks(xs, size)| == CeilDiv(|xs|, size)
    decreases |xs|
  {
    if |xs| > 0 {
      var k := Min(size, |xs|);
      ChunksUnfold(xs, size);
      ChunkCount(xs[k..], size);
      var r := |Chunks(xs[k..], size)|;
      if |xs| <= size {
        CeilDivZero(size);
        CeilDivUnique(|xs|, size, 1);
      } else {
        CeilDivStep(|xs|, size, r);
        CeilDivUnique(|xs|, size, 1 + r);
      }
    }
  }

  lemma ChunksUnfold<T>(xs: seq<T>, size: nat)
    requires size > 0 && |xs| > 0
    ensures Chunks(xs, size) == [xs[..Min(size, |xs|)]] + Chunks(xs[Min(size, |xs|)..], size)
  {
  }

  lemma SliceOfSuffix<T>(xs: seq<T>, k: nat, lo: nat, hi: nat)
    requires k <= |xs| && lo <= hi <= |xs| - k
    ensures xs[k..][lo..hi] == xs[k + lo..k + hi]
  {
  }

  /** Where page `i` starts: `size` added `i` times. */
  function Offset(size: nat, i: nat): nat {
    if i == 0 then 0 else Offset(size, i - 1) + size
  }

  lemma {:induction false} OffsetIsProduct(size: nat, i: nat)
    ensures Offset(size, i) == size * i
  {
    if i > 0 {
      OffsetIsProduct(size, i - 1);
      MulSucc(size, i);
    }
  }

  lemma {:induction false} ChunkWindowsAt<T>(xs: seq<T>, size: nat, i: nat)
    requires size > 0
    requires i < |Chunks(xs, size)|
    ensures Offset(size, i) < |xs|
    ensures Chunks(xs, size)[i] == xs[Offset(size, i)..Min(Offset(size, i) + size, |xs|)]
    decreases |xs|
  {
    var k := Min(size, |xs|);
    var pages := Chunks(xs, size);
    var rest := Chunks(xs[k..], size);
    ChunksUnfold(xs, size);
    assert |pages| == 1 + |rest|;
    if i == 0 {
      assert pages[0] == xs[..k];
    } else {
      assert |xs[k..]| > 0;
      assert k == size;
      ChunkWindowsAt(xs[k..], size, i - 1);
      var lo := Offset(size, i - 1);
      var hi := Min(lo + size, |xs| - size);
      assert Offset(size, i) == size + lo;
      assert Min(Offset(size, i) + size, |xs|) == size + hi;
      assert pages[i] == rest[i - 1] == xs[k..][lo..hi];
      SliceOfSuffix(xs, size, lo, hi);
    }
  }

  /** Page `i` is the window `[size * i, min(size * i + size, |xs|))` of the input: exactly
      what `labels.slice(i, i + labelsPerPage)` takes at the loop's `i`-th step. */
  lemma ChunkWindows<T>(xs: seq<T>, size: nat, i: nat)
    requires size > 0
    requires i < |Chunks(xs, size)|
    ensures size * i < |xs|
    ensures Chunks(xs, size)[i] == xs[size * i..Min(size * i + size, |xs|)]
  {
    ChunkWindowsAt(xs, size, i);
    OffsetIsProduct(size, i);
  }

  lemma MulSucc(size: nat, i: nat)
    requires i > 0
    ensures size * i == size * (i - 1) + size
  {
  }

  /** The page list of a document: the chunks of ten, and one empty page when there are no labels. */
  function Paginate<T>(labels: seq<T>): (pages: seq<seq<T>>)
    ensures |pages| >= 1
    ensures Flatten(pages) == labels
    ensures |labels| == 0 ==> pages == [[]]
    ensures |labels| > 0 ==> |pages| == CeilDiv(|labels|, LabelsPerPage)
    ensures |labels| > 0 ==> forall i :: 0 <= i < |pages| ==> 1 <= |pages[i]| <= LabelsPerPage
    ensures forall i :: 0 <= i < |pages| - 1 ==> |pages[i]| == LabelsPerPage
    ensures |pages[|pages| - 1]| == |labels| - LabelsPerPage * (|pages| - 1)
  {
    var pages := Chunks(labels, LabelsPerPage);
    ChunkCount(labels, LabelsPerPage);
    ChunkSizes(labels, LabelsPerPage);
    if |pages| == 0 then
      var empty: seq<seq<T>> := [[]];
      assert Flatten(empty) == [] + Flatten(empty[1..]);
      empty
    else
      ChunkWindows(labels, LabelsPerPage, |pages| - 1);
      pages
  }

  /** While the loop offset is below the length there is another chunk to take. */
  lemma OffsetBelowLength<T>(labels: seq<T>, taken: nat)
    requires LabelsPerPage * taken < |labels|
    ensures taken < |Chunks(labels, LabelsPerPage)|
  {
    ChunkCount(labels, LabelsPerPage);
  }

  /** Once the loop offset reaches the length every chunk has been taken. */
  lemma OffsetPastLength<T>(labels: seq<T>, taken: nat)
    requires LabelsPerPage * taken >= |labels|
    requires taken <= |Chunks(labels, LabelsPerPage)|
    ensures taken == |Chunks(labels, LabelsPerPage)|
  {
    ChunkCount(labels, LabelsPerPage);
  }

  /** The page-splitting loop as written: slices of ten from offset 0 in steps of ten,
      then an empty page pushed when none was produced. */
  method SplitPages<T>(labels: seq<T>) returns (pages: seq<seq<T>>)
    ensures pages == Paginate(labels)
  {
    ghost var chunks := Chunks(labels, LabelsPerPage);
    pages := [];
    var i := 0;
    while i < |labels|
      invariant i == LabelsPerPage * |pages|
      invariant |pages| <= |chunks|
      invariant forall j :: 0 <= j < |pages| ==> pages[j] == chunks[j]
      decreases |labels| - i
    {
      OffsetBelowLength(labels, |pages|);
      ChunkWindows(labels, LabelsPerPage, |pages|);
      var page := Slice(labels, i, i + LabelsPerPage);
      assert page == chunks[|pages|];
      pages := pages + [page];
      i := i + LabelsPerPage;
    }
    OffsetPastLength(labels, |pages|);
    assert pages == chunks;
    if |pages| == 0 {
      pages := pages + [[]];
    }
  }

  /** Two runs of digits joined by a slash: the slash is the only non-digit, and each side reads back. */
  lemma SlashJoin(a: string, b: string)
    requires forall j :: 0 <= j < |a| ==> IsDigit(a[j])
    requires forall j :: 0 <= j < |b| ==> IsDigit(b[j])
    ensures var t := a + "/" + b;
            && |t| == |a| + 1 + |b| && t[|a|] == '/'
            && t[..|a|] == a && t[|a| + 1..] == b && '/' !in a
            && (forall j :: 0 <= j < |t| && j != |a| ==> IsDigit(t[j]))
  {
    var t := a + "/" + b;
    assert !IsDigit('/');
    forall j | 0 <= j < |t| && j != |a| ensures IsDigit(t[j]) {
      if j < |a| {
        assert t[j] == a[j];
      } else {
        assert t[j] == b[j - |a| - 1];
      }
    }
  }

  /** The right-hand footer text of page `pageIndex` (0-based) out of `pageCount`: `"{i+1}/{n}"`.
      Cut where the first number's digits end, it reads back the page's number, a slash and the page count. */
  function PageNumber(pageIndex: nat, pageCount: nat): (t: string)
    ensures forall slash {:trigger t[..slash]} ::
              0 <= slash <= |t| && slash == |NatToString(pageIndex + 1)| ==>
                && 0 < slash < |t| && t[slash] == '/'
                && DecimalValue(t[..slash]) == pageIndex + 1
                && DecimalValue(t[slash + 1..]) == pageCount
  {
    var a := NatToString(pageIndex + 1);
    var b := NatToString(pageCount);
    SlashJoin(a, b);
    a + "/" + b
  }

  /** A footer is digits apart from its one slash. */
  lemma PageNumberReadsBack(pageIndex: nat, pageCount: nat)
    ensures var t := PageNumber(pageIndex, pageCount);
            var slash := |NatToString(pageIndex + 1)|;
            && t[..slash] == NatToString(pageIndex + 1) && t[slash + 1..] == NatToString(pageCount)
            && (forall j :: 0 <= j < |t| && j != slash ==> IsDigit(t[j]))
  {
    SlashJoin(NatToString(pageIndex + 1), NatToString(pageCount));
  }

  /** Different pages of one document carry different footers. */
  lemma PageNumbersDistinct(i: nat, j: nat, pageCount: nat)
    requires i != j
    ensures PageNumber(i, pageCount) != PageNumber(j, pageCount)
  {
    PageNumberReadsBack(i, pageCount);
    PageNumberReadsBack(j, pageCount);
  }
}

=== FILE: print_data_wrap.dfy ===
/**
 * The fixed-width wrapper for the `print_data` cell of a label: hard splits
 * every 12 characters, at most four lines, anything after 48 characters is
 * dropped. The JSX joins the lines with newlines; the model keeps the lines.
 */
module PrintDataWrap {
  import opened Wrappers
  import opened JsText
  import opened Seqs

  const LineWidth := 12
  const MaxLines := 4

  /** The lines `text` is cut into when it needs two, three or four of them. */
  lemma FlattenLines(a: string, b: string, c: string, d: string)
    ensures Flatten([a, b]) == a + b
    ensures Flatten([a, b, c]) == a + b + c
    ensures Flatten([a, b, c, d]) == a + b + c + d
  {
    assert Flatten([d]) == d by { assert [d][1..] == []; }
    assert Flatten([c, d]) == c + d by { assert [c, d][1..] == [d]; }
    assert Flatten([b, c, d]) == b + (c + d) by { assert [b, c, d][1..] == [c, d]; }
    assert [a, b, c, d][1..] == [b, c, d];
    assert Flatten([c]) == c by { assert [c][1..] == []; }
    assert Flatten([b, c]) == b + c by { assert [b, c][1..] == [c]; }
    assert [a, b, c][1..] == [b, c];
    assert Flatten([b]) == b by { assert [b][1..] == []; }
    assert [a, b][1..] == [b];
  }

  /** Line `i` is the `i`-th 12-character window of the text (the last one possibly shorter). */
  predicate LineIsWindow(text: string, lines: seq<string>, i: nat)
    requires i < |lines|
  {
    LineWidth * i <= |text| && lines[i] == text[LineWidth * i..Min(LineWidth * i + LineWidth, |text|)]
  }

  /** The wrapping expression, branch for branch. */
  function WrapLines(text: string): (lines: seq<string>)
    ensures 1 <= |lines| <= MaxLines
    ensures forall i :: 0 <= i < |lines| ==> |lines[i]| <= LineWidth
    ensures forall i :: 0 <= i < |lines| - 1 ==> |lines[i]| == LineWidth
    ensures forall i :: 0 <= i < |lines| ==> LineIsWindow(text, lines, i)
    ensures |lines| < MaxLines ==> LineWidth * (|lines| - 1) <= |text| <= LineWidth * |lines|
    ensures |lines| == 1 || LineWidth * (|lines| - 1) < |text|
  {
    if |text| <= 12 then
      assert LineIsWindow(text, [text], 0);
      [text]
    else
      var line1 := Substring(text, 0, 12);
      var remaining1 := SubstringFrom(text, 12);
      assert line1 == text[..12] && remaining1 == text[12..];
      if |remaining1| <= 12 then
        var lines := [line1, remaining1];
        assert LineIsWindow(text, lines, 0) && LineIsWindow(text, lines, 1);
        lines
      else
        var line2 := Substring(remaining1, 0, 12);
        var remaining2 := SubstringFrom(remaining1, 12);
        assert line2 == text[12..24] && remaining2 == text[24..];
        if |remaining2| <= 12 then
          var lines := [line1, line2, remaining2];
          assert LineIsWindow(text, lines, 0) && LineIsWindow(text, lines, 1) && LineIsWindow(text, lines, 2);
          lines
        else
          var line3 := Substring(remaining2, 0, 12);
          var line4 := Substring(remaining2, 12, 24);
          assert line3 == text[24..36];
          assert line4 == text[36..Min(|text|, 48)];
          var lines := [line1, line2, line3, line4];
          assert LineIsWindow(text, lines, 0) && LineIsWindow(text, lines, 1);
          assert LineIsWindow(text, lines, 2) && LineIsWindow(text, lines, 3);
          lines
  }

  /** The lines read in order give back the first 48 characters: nothing is lost below the cap. */
  lemma WrapKeepsPrefix(text: string)
    ensures Flatten(WrapLines(text)) == text[..Min(|text|, LineWidth * MaxLines)]
  {
    var lines := WrapLines(text);
    var n := Min(|text|, 48);
    assert LineIsWindow(text, lines, 0);
    if |lines| == 1 {
      assert Flatten(lines) == lines[0] by { assert lines[1..] == []; }
      assert text[..n] == lines[0];
    } else if |lines| == 2 {
      assert LineIsWindow(text, lines, 1);
      FlattenLines(lines[0], lines[1], "", "");
      assert lines == [lines[0], lines[1]];
      assert text[..n] == lines[0] + lines[1];
    } else if |lines| == 3 {
      assert LineIsWindow(text, lines, 1) && LineIsWindow(text, lines, 2);
      FlattenLines(lines[0], lines[1], lines[2], "");
      assert lines == [lines[0], lines[1], lines[2]];
      assert text[..n] == lines[0] + lines[1] + lines[2];
    } else {
      assert LineIsWindow(text, lines, 1) && LineIsWindow(text, lines, 2) && LineIsWindow(text, lines, 3);
      FlattenLines(lines[0], lines[1], lines[2], lines[3]);
      assert lines == [lines[0], lines[1], lines[2], lines[3]];
      assert text[..n] == lines[0] + lines[1] + lines[2] + lines[3];
    }
  }

  /** `item.print_data || ''`, then the wrapper. */
  function WrapPrintData(printData: Option<string>): (lines: seq<string>)
    ensures lines == WrapLines(Or(printData, ""))
    ensures 1 <= |lines| <= MaxLines
  {
    WrapLines(printData.GetOr(""))
  }

  /** Short text (including the empty string) is one unchanged line; a missing value reads as `""`. */
  lemma ShortTextIsOneLine(printData: Option<string>)
    requires |printData.GetOr("")| <= LineWidth
    ensures WrapPrintData(printData) == [printData.GetOr("")]
    ensures printData.None? ==> WrapPrintData(printData) == [""]
  {
  }

  /** The number of lines is fixed by the length: 13–24 give two, 25–36 three, 37 and more four. */
  lemma {:induction false} LineCount(text: string)
    ensures |text| <= 12 ==> |WrapLines(text)| == 1
    ensures 12 < |text| <= 24 ==> |WrapLines(text)| == 2
    ensures 24 < |text| <= 36 ==> |WrapLines(text)| == 3
    ensures 36 < |text| ==> |WrapLines(text)| == 4
  {
  }

  /** Fifty characters wrap to four full lines and the last two characters are lost. */
  lemma FiftyCharacters(text: string)
    requires |text| == 50
    ensures |WrapLines(text)| == 4
    ensures forall i :: 0 <= i < 4 ==> WrapLines(text)[i] == text[12 * i..12 * i + 12]
  {
    var lines := WrapLines(text);
    forall i | 0 <= i < 4 ensures lines[i] == text[12 * i..12 * i + 12] {
      assert LineIsWindow(text, lines, i);
    }
  }
}

=== FILE: qr_enrichment.dfy ===
/**
 * `openPDFInNewTab` up to the finished document: QR-1 is encoded once from
 * the order number and shared by every label, QR-2 is encoded per label from
 * its `print_data`, in input order; a failed encoding becomes `""` and the
 * batch carries on. Rendering to a blob and opening a browser tab are not
 * modelled.
 */
module QrEnrichment {
  import opened Wrappers
  import opened JsText
  import opened Seqs
  import opened LabelTypes
  import opened LabelFields
  import opened LabelDocument

  /** The QR library (`QRCode.toDataURL`, ISO/IEC 18004, level M): a data URL,
      or `None` when it throws. */
  type Encoder = string -> Option<string>

  /** `generateQRCodeDataURL`: the encoder's data URL, or `""` when it fails. */
  function GenerateQrDataUrl(encode: Encoder, text: string): (url: string)
    ensures encode(text).None? ==> url == ""
    ensures encode(text).Some? ==> url == encode(text).value
  {
    match encode(text)
    case Some(dataUrl) => dataUrl
    case None => ""
  }

  /** QR-1: the order number's code when the header has a non-empty `prod_no`, otherwise `""`. */
  function SharedQrCode(header: Option<PrintHeader>, encode: Encoder): (code: string)
    ensures header.None? || !Truthy(header.value.prodNo) ==> code == ""
    ensures header.Some? && Truthy(header.value.prodNo) ==>
              code == encode(header.value.prodNo.value).GetOr("")
  {
    if header.Some? && Truthy(header.value.prodNo) then
      GenerateQrDataUrl(encode, header.value.prodNo.value)
    else
      ""
  }

  /** QR-2 of one label: its `print_data`'s code when that is non-empty, otherwise `""`. */
  function LabelQrCode(item: PrintableLabel, encode: Encoder): (code: string)
    ensures !Truthy(item.printData) ==> code == ""
    ensures Truthy(item.printData) ==> code == encode(item.printData.value).GetOr("")
  {
    if Truthy(item.printData) then GenerateQrDataUrl(encode, item.printData.value) else ""
  }

  /** The enrichment loop as a sequence: every label, in order, with the shared QR-1 and its own QR-2. */
  function Enrich(data: Option<seq<PrintableLabel>>, header: Option<PrintHeader>, encode: Encoder)
    : (out: seq<EnrichedLabel>)
    ensures |out| == |data.GetOr([])|
    ensures forall i :: 0 <= i < |out| ==> out[i].item == data.GetOr([])[i]
    ensures forall i, j :: 0 <= i < |out| && 0 <= j < |out| ==> out[i].qrCode1 == out[j].qrCode1
    ensures forall i :: 0 <= i < |out| ==>
              out[i].qrCode1 == (if header.Some? && Truthy(header.value.prodNo)
                                 then GenerateQrDataUrl(encode, header.value.prodNo.value) else "")
    ensures forall i :: 0 <= i < |out| && !Truthy(out[i].item.printData) ==> out[i].qrCode2 == ""
    ensures forall i :: 0 <= i < |out| && Truthy(out[i].item.printData) ==>
              out[i].qrCode2 == GenerateQrDataUrl(encode, out[i].item.printData.value)
  {
    var labels := data.GetOr([]);
    var qrCode1 := SharedQrCode(header, encode);
    seq(|labels|, i requires 0 <= i < |labels| => EnrichedLabel(labels[i], qrCode1, LabelQrCode(labels[i], encode)))
  }

  /** The sequential `for … of` loop with one `await` per label, guarded by
      `data && data.length > 0`; it yields the same labels as `Enrich`. */
  method GenerateQrCodes(data: Option<seq<PrintableLabel>>, header: Option<PrintHeader>, encode: Encoder)
    returns (labelsWithQR: seq<EnrichedLabel>)
    ensures labelsWithQR == Enrich(data, header, encode)
  {
    labelsWithQR := [];
    var qrCode1 := SharedQrCode(header, encode);
    if data.Some? && |data.value| > 0 {
      var items := data.value;
      var i := 0;
      while i < |items|
        invariant 0 <= i <= |items|
        invariant |labelsWithQR| == i
        invariant forall j :: 0 <= j < i ==>
                    labelsWithQR[j] == EnrichedLabel(items[j], qrCode1, LabelQrCode(items[j], encode))
      {
        var item := items[i];
        var qrCode2 := if Truthy(item.printData) then GenerateQrDataUrl(encode, item.printData.value) else "";
        labelsWithQR := labelsWithQR + [EnrichedLabel(item, qrCode1, qrCode2)];
        i := i + 1;
      }
    }
  }

  /** The document `openPDFInNewTab` renders: the enriched labels through `LabelDocumentWithQR`. */
  function BuildDocument(data: Option<seq<PrintableLabel>>, header: Option<PrintHeader>, encode: Encoder)
    : (doc: seq<RenderedPage>)
    ensures |doc| >= 1
    ensures |DocumentLabels(doc)| == |data.GetOr([])|
  {
    var labelsWithQR := Enrich(data, header, encode);
    var doc := QrDocument(labelsWithQR, header);
    assert |DocumentLabels(doc)| == |labelsWithQR|;
    doc
  }

  /** The printed labels are the input labels, in order, each carrying the shared QR-1
      code and its own QR-2 code. */
  lemma BuildDocumentLabels(data: seq<PrintableLabel>, header: Option<PrintHeader>, encode: Encoder)
    ensures var printed := DocumentLabels(BuildDocument(Some(data), header, encode));
            && |printed| == |data|
            && forall k :: 0 <= k < |data| ==>
                 printed[k] == RenderLabel(data[k], header,
                                           Some(SharedQrCode(header, encode)),
                                           Some(LabelQrCode(data[k], encode)))
  {
    var enriched := Enrich(Some(data), header, encode);
    assert DocumentLabels(BuildDocument(Some(data), header, encode)) == DocumentLabels(QrDocument(enriched, header));
  }

  /** A label whose QR-2 encoding fails is still printed, at its place, with only that cell blank. */
  lemma EncoderFailureBlanksOneCell(data: seq<PrintableLabel>, header: Option<PrintHeader>,
                                    encode: Encoder, k: nat)
    requires k < |data|
    requires Truthy(data[k].printData) && encode(data[k].printData.value).None?
    ensures var printed := DocumentLabels(BuildDocument(Some(data), header, encode));
            k < |printed| && printed[k].qrImage2.None?
            && printed[k].qrImage1 == RenderLabel(data[k], header, Some(SharedQrCode(header, encode)), None).qrImage1
  {
    BuildDocumentLabels(data, header, encode);
  }

  /** With no order number (no header, or a missing or empty `prod_no`) and no print data anywhere,
      every label prints with both QR cells blank. */
  lemma NoSourcesNoImages(data: seq<PrintableLabel>, header: Option<PrintHeader>, encode: Encoder)
    requires header.None? || !Truthy(header.value.prodNo)
    requires forall i :: 0 <= i < |data| ==> !Truthy(data[i].printData)
    ensures var printed := DocumentLabels(BuildDocument(Some(data), header, encode));
            forall k :: 0 <= k < |printed| ==> printed[k].qrImage1.None? && printed[k].qrImage2.None?
  {
    BuildDocumentLabels(data, header, encode);
  }

  /** An absent or empty batch still renders: one blank page. */
  lemma EmptyBatchOnePage(data: Option<seq<PrintableLabel>>, header: Option<PrintHeader>, encode: Encoder)
    requires data.None? || data.value == []
    ensures |BuildDocument(data, header, encode)| == 1
    ensures BuildDocument(data, header, encode)[0].labels == []
  {
    var enriched := Enrich(data, header, encode);
    DocumentShape(enriched, (e: EnrichedLabel) => RenderLabel(e.item, header, Some(e.qrCode1), Some(e.qrCode2)));
  }
}

=== FILE: search_filter.dfy ===
/**
 * The search boxes of the label list and the label detail screen: a term
 * that trims to nothing shows every row; otherwise a row stays when its key,
 * lower-cased, contains the lower-cased term (the term itself is not trimmed).
 */
module SearchFilter {
  import opened JsText
  import opened Seqs

  /** `key.toLowerCase().includes(term.toLowerCase())`. */
  predicate Matches(key: string, term: string) {
    Includes(ToLower(key), ToLower(term))
  }

  /** The filter effect: all rows for a blank term, else the matching rows in their order. */
  function Search<T(!new)>(rows: seq<T>, key: T -> string, term: string): (r: seq<T>)
    ensures IsBlank(term) ==> r == rows
    ensures !IsBlank(term) ==> forall x :: x in r <==> x in rows && Matches(key(x), term)
    ensures !IsBlank(term) ==> KeepsCounts(r, rows, (x: T) => Matches(key(x), term))
    ensures IsSubsequence(r, rows)
  {
    if Trim(term) == "" then
      SubsequenceReflexive(rows);
      rows
    else
      Filter(rows, (x: T) => Matches(key(x), term))
  }

  /** Searching the search result again with the same term changes nothing. */
  lemma SearchIdempotent<T(!new)>(rows: seq<T>, key: T -> string, term: string)
    ensures Search(Search(rows, key, term), key, term) == Search(rows, key, term)
  {
    if !IsBlank(term) {
      FilterIdempotent(rows, (x: T) => Matches(key(x), term));
    }
  }

  /** Letter case on either side does not matter (for ASCII letters). */
  /** Typing the search term in upper or lower case shows the same rows. */
  lemma SearchIgnoresTermCase<T(!new)>(rows: seq<T>, key: T -> string, term: string)
    ensures Search(rows, key, term) == Search(rows, key, ToLower(term))
  {
    ToLowerFacts(term);
    forall x ensures Matches(key(x), term) == Matches(key(x), ToLower(term)) {
      MatchIgnoresCase(key(x), term);
    }
    if Trim(term) != "" {
      FilterAgreeing(rows, (x: T) => Matches(key(x), term), (x: T) => Matches(key(x), ToLower(term)));
    }
  }

  lemma MatchIgnoresCase(key: string, term: string)
    ensures Matches(key, term) == Matches(ToLower(key), ToLower(term))
  {
    assert ToLower(ToLower(key)) == ToLower(key);
    assert ToLower(ToLower(term)) == ToLower(term);
  }
}

=== FILE: seqs.dfy ===
/** Sequence vocabulary shared by the pagination, filter and table models. */
module Seqs {

  function Min(a: int, b: int): int {
    if a <= b then a else b
  }

  /** Concatenation of a sequence of sequences, in order. */
  function Flatten<T>(xss: seq<seq<T>>): seq<T> {
    if |xss| == 0 then [] else xss[0] + Flatten(xss[1..])
  }

  lemma {:induction false} FlattenAppend<T>(a: seq<seq<T>>, b: seq<seq<T>>)
    ensures Flatten(a + b) == Flatten(a) + Flatten(b)
    decreases |a|
  {
    if |a| == 0 {
      assert a + b == b;
    } else {
      assert (a + b)[1..] == a[1..] + b;
      FlattenAppend(a[1..], b);
    }
  }

  /** `a` is `b` with some elements removed and the rest kept in order. */
  ghost predicate IsSubsequence<T>(a: seq<T>, b: seq<T>)
    decreases |b|
  {
    if |a| == 0 then true
    else if |b| == 0 then false
    else (a[0] == b[0] && IsSubsequence(a[1..], b[1..])) || IsSubsequence(a, b[1..])
  }

  /** `r` holds every element that passes `p` exactly as often as `xs` does, and nothing else. */
  ghost predicate KeepsCounts<T(!new)>(r: seq<T>, xs: seq<T>, p: T -> bool) {
    forall x :: multiset(r)[x] == (if p(x) then multiset(xs)[x] else 0)
  }

  /** `Array.prototype.filter`: keeps, in order, exactly the elements that pass `p`. */
  function Filter<T(!new)>(xs: seq<T>, p: T -> bool): (r: seq<T>)
    ensures |r| <= |xs|
    ensures forall x :: x in r <==> x in xs && p(x)
    ensures IsSubsequence(r, xs)
    ensures KeepsCounts(r, xs, p)
    ensures (forall i :: 0 <= i < |xs| ==> p(xs[i])) ==> r == xs
    decreases |xs|
  {
    if |xs| == 0 then
      []
    else
      var rest := Filter(xs[1..], p);
      assert forall x :: x in xs <==> x == xs[0] || x in xs[1..];
      assert xs == [xs[0]] + xs[1..];
      assert multiset(xs) == multiset{xs[0]} + multiset(xs[1..]);
      if p(xs[0]) then
        assert ([xs[0]] + rest)[1..] == rest;
        assert multiset([xs[0]] + rest) == multiset{xs[0]} + multiset(rest);
        [xs[0]] + rest
      else
        rest
  }

  lemma {:induction false} SubsequenceReflexive<T>(xs: seq<T>)
    ensures IsSubsequence(xs, xs)
    decreases |xs|
  {
    if |xs| > 0 {
      SubsequenceReflexive(xs[1..]);
    }
  }

  /** Filtering twice by the same test is filtering once. */
  /** Filtering by two predicates that agree on every element gives the same sequence. */
  lemma {:induction false} FilterAgreeing<T(!new)>(xs: seq<T>, p: T -> bool, q: T -> bool)
    requires forall x :: p(x) == q(x)
    ensures Filter(xs, p) == Filter(xs, q)
    decreases |xs|
  {
    if |xs| > 0 {
      FilterAgreeing(xs[1..], p, q);
    }
  }

  lemma {:induction false} FilterIdempotent<T(!new)>(xs: seq<T>, p: T -> bool)
    ensures Filter(Filter(xs, p), p) == Filter(xs, p)
    decreases |xs|
  {
    if |xs| > 0 {
      FilterIdempotent(xs[1..], p);
      var rest := Filter(xs[1..], p);
      if p(xs[0]) {
        assert ([xs[0]] + rest)[1..] == rest;
      }
    }
  }

  /** `Math.ceil(n / d)` for a positive divisor: the least page count whose capacity covers `n`. */
  function CeilDiv(n: nat, d: nat): (r: nat)
    requires d > 0
    ensures r * d >= n
    ensures r == 0 || (r - 1) * d < n
  {
    (n + d - 1) / d
  }

  /** `CeilDiv` is the only number with both of its properties. */
  lemma CeilDivUnique(n: nat, d: nat, k: nat)
    requires d > 0
    requires k * d >= n
    requires k == 0 || (k - 1) * d < n
    ensures k == CeilDiv(n, d)
  {
    var c := CeilDiv(n, d);
    if k < c {
      assert (c - 1) * d >= k * d by {
        assert c - 1 >= k;
        MulMonotone(k, c - 1, d);
      }
    } else if k > c {
      assert (k - 1) * d >= c * d by {
        MulMonotone(c, k - 1, d);
      }
    }
  }

  lemma CeilDivZero(d: nat)
    requires d > 0
    ensures CeilDiv(0, d) == 0
  {
    assert 0 <= d - 1 < d;
  }

  /** Taking one full chunk of `d` off `n > d` takes one off the chunk count. */
  lemma CeilDivStep(n: nat, d: nat, r: nat)
    requires d > 0 && n > d
    requires r == CeilDiv(n - d, d)
    ensures (1 + r) * d >= n
    ensures r * d < n
  {
    assert (1 + r) * d == d + r * d;
    if r > 0 {
      assert (r - 1) * d == r * d - d;
    }
  }

  lemma MulMonotone(a: nat, b: nat, d: nat)
    requires a <= b
    ensures a * d <= b * d
  {
  }

  /** `Array.prototype.map`. */
  function MapSeq<A, B>(xs: seq<A>, f: A -> B): (r: seq<B>)
    ensures |r| == |xs|
    ensures forall i :: 0 <= i < |xs| ==> r[i] == f(xs[i])
  {
    seq(|xs|, i requires 0 <= i < |xs| => f(xs[i]))
  }

  /** Mapping every inner sequence and then flattening maps the flattening. */
  lemma {:induction false} FlattenMap<A, B>(xss: seq<seq<A>>, f: A -> B)
    ensures Flatten(MapSeq(xss, (xs: seq<A>) => MapSeq(xs, f))) == MapSeq(Flatten(xss), f)
    decreases |xss|
  {
    var g := (xs: seq<A>) => MapSeq(xs, f);
    if |xss| > 0 {
      FlattenMap(xss[1..], f);
      assert MapSeq(xss, g)[1..] == MapSeq(xss[1..], g);
      assert MapSeq(xss[0] + Flatten(xss[1..]), f) == MapSeq(xss[0], f) + MapSeq(Flatten(xss[1..]), f);
    }
  }

  /** Resolves an `Array.prototype.slice` bound against the length: negative counts from the end. */
  function SliceIndex(i: int, len: nat): (r: nat)
    ensures r <= len
  {
    if i < 0 then (if len + i < 0 then 0 else len + i) else if i > len then len else i
  }

  /** A slice whose start lies inside the sequence is the plain window up to `min(end, |xs|)`. */
  lemma SliceInRange<T>(xs: seq<T>, start: int, end: int)
    requires 0 <= start <= |xs| && start <= end
    ensures Slice(xs, start, end) == xs[start..Min(end, |xs|)]
  {
  }

  /** `xs.slice(start, end)`: the elements between the resolved bounds, or none when they cross. */
  function Slice<T>(xs: seq<T>, start: int, end: int): seq<T> {
    var a := SliceIndex(start, |xs|);
    var b := SliceIndex(end, |xs|);
    if a < b then xs[a..b] else []
  }
}

=== FILE: wrappers.dfy ===
/** Optional values, standing for JavaScript's `undefined` / `null` on a field. */
module Wrappers {

  datatype Option<+T> = None | Some(value: T) {

    /** The wrapped value, or `default` when there is none. */
    function GetOr(default: T): T {
      match this
      case Some(v) => v
      case None => default
    }
  }
}
